=== FILE: README.md ===
# zap-shift parcel server — a Dafny model

This project models the request-handling core of the zap-shift parcel
delivery server (`index.js`), an Express application over a MongoDB
database and Firebase authentication. Each request is a pure transition on
an immutable store `Db` with four collections: parcels, payments, users and
riders. The transition returns the new store and an `Outcome`. An `Outcome`
is an HTTP reply, or a `Crash` when the handler lets a driver error escape
as an unhandled promise rejection.

The model covers these parts:

- **Guards** (module `Auth`):
  - the Firebase token guard `verifyFBToken`;
  - the admin guard `verifyAdmin`;
  - the caller-email check of `GET /payments`.
- **Route handlers** (module `Routes`): the fourteen handlers for parcels,
  payments, users and riders.
- **Route table** (module `Server`): which guard runs in front of which
  handler, and dispatch through those guards.
- **Driver behaviour the handlers rely on** (modules `Collections`,
  `ObjectIds`, `BsonOrder`, `Strings`):
  - Equality filters, where a missing field counts as null.
  - `find`, `findOne`, `insertOne` with its unique `_id` index, `updateOne`
    with `$set`, `deleteOne`, projection and `limit`.
  - Sorting in BSON type order.
  - The `ObjectId` constructor on 24-digit hex strings.
  - JavaScript's `split(' ')[1]`.
- **Cross-route properties** (module `ServerProperties`): the store
  invariant, the guards across all routes, and the payment and search
  properties.
- **Request sequences** (module `Scenarios`): each write handler paired
  with the handler that reads its effect back.

The environment is passed in as an `Env` value:

- the identity provider's verdict on a token;
- the regular-expression engine;
- the clock, read twice by POST /payments (`now` for `date`, `later` for
  `dateString`), and `toISOString` as the function `iso` on milliseconds;
- the `_id` the driver assigns to the next insert (`newId`);
- the id `new ObjectId(null)` or `new ObjectId(n)` generates (`generatedId`).

## Model

| member | source | states |
|---|---|---|
| Strings.Split | index.js:53 | Splitting on a separator yields at least one piece, no piece contains the separator, and joining the pieces back gives the original string |
| Strings.JoinInjective | index.js:53 | Two separator-free piece lists that join to the same string are equal, so the split of a string is unique |
| Strings.SplitJoin | index.js:53 | Splitting the join of separator-free pieces returns exactly those pieces |
| Strings.SecondPiece | index.js:53 | `split(sep)[1]` is undefined exactly when the string has no separator, and otherwise contains no separator |
| Strings.SecondPieceOf | index.js:53 | For `head sep piece tail`, where head and piece have no separator and tail is empty or starts with one, the second piece is `piece` |
| Strings.SecondPieceShape | index.js:53 | Whenever a second piece exists, the string has that shape with the piece after the first separator |
| ObjectIds.ParseHexId | index.js:118 | `new ObjectId(s)` accepts a string exactly when it has 24 hex digits of either case, and then denotes their value |
| ObjectIds.ObjectIdOf | index.js:177 | `new ObjectId(v)`: a string is parsed as above; undefined, null or a number give a freshly generated id; a boolean or a date throws |
| ObjectIds.ToHexString | index.js:118 | The printed form of an id is 24 lower-case hex digits |
| ObjectIds.IdBoundIsPow16 | index.js:118 | 24 hex digits span exactly the 96-bit id space |
| ObjectIds.ParseToHexString | index.js:118 | Parsing the printed form of an id gives back that id |
| ObjectIds.ToHexStringOfParse | index.js:118 | A lower-case 24-digit hex string parses, and printing the parsed id gives back the same string |
| ObjectIds.HexDigitsValue | index.js:118 | Printing a value below 16^k in k digits and reading it back gives the value |
| ObjectIds.HexValueDigits | index.js:118 | Reading lower-case digits and printing the value in as many digits gives back the digits |
| BsonOrder.StrLeqTotal | index.js:241 | Code-point string comparison relates every pair of strings |
| BsonOrder.StrLeqTransitive | index.js:241 | Code-point string comparison is transitive |
| BsonOrder.StrLeqAntisymmetric | index.js:241 | Strings that compare both ways are equal |
| BsonOrder.LeqTotal | index.js:105 | The BSON sort order (null < number < string < boolean < date) relates every pair of values |
| BsonOrder.LeqTransitive | index.js:105 | The BSON sort order is transitive |
| BsonOrder.LeqAntisymmetric | index.js:105 | Values that compare both ways under the BSON order are equal |
| Collections.FirstMatch | index.js:82 | The first position whose document matches the filter; none exactly when no document matches |
| Collections.Find | index.js:207 | `find` returns exactly the stored documents that match the filter, never more documents than stored, keeping ids unique |
| Collections.FindOne | index.js:120 | `findOne` returns the first matching document in natural order, which is the first one `find` would return, and nothing exactly when no document matches |
| Collections.FirstMatchAt | index.js:120 | A matching position with no match before it is the first match |
| Collections.FirstMatchHeadsFind | index.js:120 | The first match in natural order heads the `find` result |
| Collections.InsertOne | index.js:128 | `insertOne` fails with a duplicate-key error exactly when the id is taken; otherwise it appends the document and keeps ids unique |
| Collections.SetFields | index.js:179-182 | `$set` overwrites the named fields, adds the missing ones and keeps every other field |
| Collections.UpdateOne | index.js:184 | `updateOne` changes at most the first matching document, by `$set`, keeps every id, and reports matched/modified counts (matched 0 exactly when nothing matches) |
| Collections.UpdateById | index.js:264 | With unique ids, an update by id changes only the document with that id and matches exactly when that id is stored |
| Collections.UpdateByIdMatches | index.js:184 | An update by id reports one match exactly when a document with that id is stored |
| Collections.SetFieldById | index.js:264 | With unique ids, setting one field by id gives that field the new value in exactly the document with that id and leaves every other document as it was |
| Collections.UpdateKeepsUniqueIds | index.js:184 | Updates keep the unique-id index |
| Collections.UpdateKeepsField | index.js:264 | A field not named in `$set` keeps its value in every document |
| Collections.DeleteOne | index.js:140 | `deleteOne` removes at most the first matching document, and reports 0 exactly when nothing matches |
| Collections.RemoveAtMembers | index.js:140 | Removing one entry from a collection with unique ids leaves exactly the entries with other ids |
| Collections.DeleteById | index.js:139-140 | With unique ids, a delete by id removes exactly the document with that id, if stored, and nothing else |
| Collections.Project | index.js:242 | A projection keeps the id and exactly the listed fields that are present, with their values |
| Collections.ProjectAll | index.js:242 | A projection is applied to every document, in order |
| Collections.Limit | index.js:243 | `limit(n)` keeps the first n documents, or all of them when there are fewer |
| Collections.InOrderTotal | index.js:105 | The order on a sort key, ascending or descending, relates every pair of documents |
| Collections.InOrderTransitive | index.js:105 | The order on a sort key is transitive |
| Collections.InsertInOrder | index.js:241 | Inserting into a sorted list keeps it sorted and adds exactly that document |
| Collections.SortBy | index.js:104-110 | Sorting on a key gives a sorted permutation of the input |
| Collections.SortKeepsUniqueIds | index.js:241 | Sorting a collection with unique ids gives a result with unique ids, so no document appears twice |
| Collections.UniqueIdsOccurOnce | index.js:241 | In a collection with unique ids, every document occurs at most once |
| Auth.VerifyToken | index.js:46-76 | 401 exactly when the header is missing or has no non-empty second space-separated piece; 403 exactly when the provider refuses that piece; otherwise the decoded identity passes |
| Auth.ShapedHasToken | index.js:53-57 | A header `scheme token rest`, where token is non-empty and space-free, yields that token |
| Auth.HasTokenShape | index.js:49-57 | A header passes the first stage exactly when it has that shape |
| Auth.SchemeIgnored | index.js:53 | The first word of the header is never checked: any scheme gives the same verdict for the same token |
| Auth.BearerHeader | index.js:53-73 | For `Bearer <token>`, the guard's verdict is the provider's verdict on the token |
| Auth.MalformedHeadersUnauthorized | index.js:49-57 | A missing header, an empty one, `Bearer`, `Bearer ` and `Bearer  x` are all rejected with 401 |
| Auth.VerifyAdmin | index.js:79-88 | The admin guard passes the identity on unchanged only when some user with the caller's email has role exactly "admin"; otherwise 403 "forbidden access form verify admin" |
| Auth.AdminGateExact | index.js:79-88 | With one user per email, the admin guard passes exactly when a user with the caller's email has role "admin" |
| Auth.PaymentsOwnerCheck | index.js:194-196 | The payments owner check passes exactly when the email claim equals the query parameter, with missing matching missing; otherwise 403 |
| Auth.OwnerCheckRefusesOthers | index.js:194-196 | A caller with an email claim is refused when the parameter is absent or different |
| Routes.OptionalEq | index.js:100-102 | An absent or empty parameter matches every document; otherwise only documents whose field equals it |
| Routes.ListParcels | index.js:96-113 | GET /parcels returns exactly the parcels of the given sender (all of them without a parameter), newest `createdAt` first |
| Routes.GetParcel | index.js:115-122 | GET /parcels/:id crashes on a malformed id; otherwise it returns the parcel with that id, or null when none exists |
| Routes.CreateParcel | index.js:124-135 | POST /parcels stores the body stamped with `createdAt` under a fresh id and answers 201, or answers 501 when the insert fails; only parcels change |
| Routes.DeleteParcel | index.js:137-142 | DELETE /parcels/:id crashes on a malformed id; otherwise it removes the parcel with that id, if any, and reports the count; only parcels change |
| Routes.LedgerEntry | index.js:169-173 | The stored payment is the body with `date` set to the first clock read and `dateString` to the ISO text of the second, independent clock read, every other field as sent |
| Routes.PaidFields | index.js:178-183 | The parcel update sets exactly `payment: "paid"` and the payment's `transactionId`, which becomes null when the payment has none |
| Routes.RecordPayment | index.js:168-187 | POST /payments appends the dated payment to the ledger first; a malformed `parcelId` then crashes with the ledger entry already written; otherwise the named parcel is marked paid and both results are returned |
| Routes.ListPayments | index.js:189-209 | GET /payments refuses a caller whose email claim differs from the parameter; otherwise it returns the caller's payments, or the whole ledger when the parameter is absent, each stored payment at most once |
| Routes.CreateUser | index.js:216-230 | POST /users answers "User already exist" and changes nothing when a user with the body's email (null if absent) exists; otherwise it appends the body verbatim |
| Routes.SearchUsers | index.js:234-252 | GET /users/search answers 500 on an invalid pattern; otherwise min(matches, 10) distinct matching users, projected to email, role and photoURL, in ascending role order |
| Routes.SearchResultFacts | index.js:239-244 | The search pipeline yields min(matches, 10) entries, each the projection of a matching user, in ascending role order, with no user twice when the matches have unique ids |
| Routes.UpdateRole | index.js:256-267 | PATCH /users/:id/role answers 400 unless the role is "admin" or "user"; then it crashes on a malformed id, or sets that role on the user with that id and changes nothing else |
| Routes.GetRole | index.js:277-285 | GET /users/role/:email answers a truthy role: the role of the first user in natural order with that email when truthy, else "user", and "user" whenever no user has that email |
| Routes.ApplyRider | index.js:294-300 | POST /riders stores the body with `status` forced to "pending", whatever the client sent; only riders change |
| Routes.RidersWithStatus | index.js:302-316 | The rider listings return exactly the riders whose status is the given value, each at most once |
| Routes.UpdateRider | index.js:318-335 | PATCH /riders/:id crashes on a malformed id; otherwise it sets `status` (null when absent) on that rider and keeps every other field |
| Server.Handle | index.js:46-335 | A guard that refuses leaves the store unchanged and answers its status; the admin guard refuses with 403 once the token has passed; when every guard of a route passes, its handler runs with the decoded identity the token guard attached; open routes go straight to their handler; read-only routes never change the store |
| ServerProperties.CreateUserKeepsEmailsUnique | index.js:216-230 | POST /users keeps at most one user per email and unique ids |
| ServerProperties.UpdateRoleKeepsEmailsUnique | index.js:256-267 | A role update keeps the store invariant |
| ServerProperties.HandlePreservesWellFormed | index.js:96-335 | Every request keeps unique ids in every collection and at most one user per email |
| ServerProperties.MissingHeaderUnauthorized | index.js:49-51 | Every guarded route answers 401 without a header and leaves the store unchanged |
| ServerProperties.RefusedTokenForbidden | index.js:63-73 | Every guarded route answers 403 to a well-shaped header whose token the provider refuses |
| ServerProperties.ActiveRidersAdminOnly | index.js:310-316 | GET /riders/active answers 200 exactly when the token passes and a user with the caller's email is an admin; otherwise 401 or 403; the store never changes |
| ServerProperties.CreateUserIdempotent | index.js:216-230 | Posting the same user twice: the second post answers "User already exist" and changes nothing, and one user with that email remains |
| ServerProperties.RoleLookup | index.js:277-285 | With one user per email, the role lookup answers that user's role when truthy and "user" otherwise |
| ServerProperties.ParcelRoundTrip | index.js:115-135 | A parcel created by POST /parcels is found by GET /parcels/:id under its printed id, stamped with `createdAt` and otherwise as sent |
| ServerProperties.CreatedParcelStored | index.js:124-135 | After POST /parcels the new parcel is stored under the fresh id and the invariant holds |
| ServerProperties.PaymentUpdatesNamedParcel | index.js:168-187 | A payment naming a stored parcel by its printed id matches that parcel and marks it paid with the payment's transaction id |
| ServerProperties.GetFindsStoredParcel | index.js:115-122 | GET /parcels/:id with the printed id of a stored parcel returns exactly that parcel |
| ServerProperties.PaymentMarksParcelPaid | index.js:124-187 | Create a parcel, then pay for it, then fetch it: the parcel reads back as paid with the payment's transaction id |
| Scenarios.CreateThenDeleteRestores | index.js:124-142 | Creating a parcel and then deleting it by its printed id reports one removal and gives back exactly the store before the create |
| Scenarios.PaymentListedForOwner | index.js:168-209 | After POST /payments, the payment is in its owner's GET /payments listing, even when the parcel update crashed after the ledger write |
| Scenarios.RoleUpdateThenLookup | index.js:256-285 | With one user per email, setting a valid role on a stored user by id makes the role lookup for that user's email answer the new role |
| Scenarios.AppliedRiderIsPending | index.js:294-308 | A rider application is listed by GET /riders/pending afterwards, with status "pending" whatever the applicant sent |
| Scenarios.AcceptedRiderLeavesPending | index.js:302-335 | Setting a stored rider's status to "accepted" removes every entry with its id from the pending list and puts the updated rider in the accepted list |
| ServerProperties.RoleLookupIgnoresCaller | index.js:277-285 | GET /users/role/:email gives every caller with a passing token the lookup for the requested email, whatever the caller's own email claim |
| ServerProperties.NoEmailClaimListsWholeLedger | index.js:189-209 | A token without an email claim plus an absent `email` parameter passes the owner check and receives the whole ledger |
| Collections.FindAnyIsAll | index.js:207 | An empty filter finds every document in natural order |
| ServerProperties.PrefixOfSortedComesFirst | index.js:241-243 | For a sequence sorted ascending on a key, a document left out of the first n sorts no earlier on that key than any document kept |
| ServerProperties.SearchReturnsFirstByRole | index.js:234-252 | A matching user left out of the search answer has a role no smaller than that of any user returned |

## Where the code and its documentation differ

The model follows the code in each of these cases:

- **Roles are not a closed set.** POST /users inserts the request body
  verbatim, so a stored role can be any value. Only PATCH /users/:id/role
  restricts the role, to "admin" or "user". GET /users/role/:email
  passes any truthy stored role through unchanged.
- **The payments listing is not sorted.** The handler builds a
  `sort: { date: -1 }` option but never passes it to `find`, so payments
  come back in natural order.
- **The role lookup has no owner check.** A comment in GET
  /users/role/:email says that users may only check their own role, but
  the handler never compares the caller's email claim with the requested
  email. Any caller with a valid token learns the role of any email.
- **The admin guard compares with `!==`.** A role of `"Admin"` does not
  pass.
- **The search is case-insensitive only through the pattern engine.** The
  `email` parameter is used as a regular expression, not as a literal
  substring, so an invalid pattern answers 500.

## Left out

- POST /create-payment-intent (index.js:147-163) is not modelled. It calls
  Stripe and computes `parseInt(amount * 100)` on floating point.
- The greeting route, server bootstrap, connection, ping and `listen`
  (index.js:1-36, 338-358) are not modelled: they are wiring, not request
  logic.
- Firebase token verification is an oracle `Env.verify`. Only the token's
  `email` claim is modelled.
- Regular-expression matching with the `i` option is an oracle
  (`Env.regex` decides matches, `Env.regexValid` decides whether the
  pattern compiles). The regex grammar and case folding are not modelled.
- Clocks (`new Date()`) and the driver's fresh `_id` are `Env` parameters,
  and `toISOString()` is the uninterpreted function `Env.iso`. The two clock
  reads of POST /payments are independent values: the model does not relate
  `later` to `now`, nor fix the ISO text format.
- Requests run one at a time. Interleaving between the two writes of
  POST /payments, or between the lookup and the insert of POST /users, is
  not modelled: concurrent requests could leave two users with one email.
- Document values are null, integers, strings, booleans and dates. Nested
  objects, arrays, non-integer numbers and NaN are not modelled, and
  neither are query parameters given as arrays or objects.
- The Authorization header is taken as Express presents it, after Node's
  HTTP parser has stripped the whitespace around it. The parser is not
  modelled, so `Auth.HasTokenShape` also covers a header that starts with a
  space, which cannot arrive.
- A client-supplied `_id` in a body is treated as an ordinary field, while
  the driver would use it as the document id.
- Database failures other than a duplicate `_id` and a malformed
  `ObjectId` (network errors, timeouts) are not modelled. Neither is
  Express's response to an unhandled rejection: it is reported as `Crash`.
- ObjectIds.ObjectIdOf: a number argument yields `Env.generatedId`; how the
  number seeds the id's timestamp part is not modelled.
- ObjectIds.ParseHexId follows the constructor of bson 5 and later; older
  releases also accept a 12-character string as raw bytes.
- Collections.SortBy keeps documents with equal keys in natural order;
  MongoDB does not promise any order among ties, so the model fixes one
  of the orders the server may return.
- Strings compare by code point in the model. MongoDB compares UTF-8
  bytes, which gives the same order. Collations are not modelled.
- A `$regex` filter matches only documents whose field is a string. The
  model does not match a pattern against numbers or other values.

=== FILE: auth.dfy ===
/** The request guards: the token guard (`verifyFBToken`), the admin guard
    (`verifyAdmin`) and the caller-email check of the payments listing. Each
    is a pure decision that rejects with an HTTP status or passes the
    verified identity on to the next stage. */
module Auth {
  import opened Json
  import opened Strings
  import opened Collections

  /** The decoded identity-provider token; only its `email` claim is used,
      and a token need not carry one. */
  datatype Identity = Identity(email: Option<string>)

  /** The identity provider's verdict on a token: the decoded identity, or
      `None` when verification throws (expired, malformed, wrong audience). */
  type Verifier = string -> Option<Identity>

  datatype Gate = Reject(status: nat, message: string) | Pass(who: Identity)

  const Unauthorized: nat := 401
  const Forbidden: nat := 403
  const UnauthorizedMessage := "unauthorize access"
  const ForbiddenMessage := "forbidden access"
  const NotAdminMessage := "forbidden access form verify admin"

  /** `authHeader.split(' ')[1]`. The first word is skipped whatever it is. */
  function HeaderToken(header: string): Option<string>
  {
    SecondPiece(header, ' ')
  }

  /** Whether a header yields a token the guard goes on to verify: `!token`
      rejects a missing and an empty second piece alike. */
  predicate HasToken(header: string)
  {
    var t := HeaderToken(header);
    t.Some? && t.value != ""
  }

  /** The token guard. A missing or empty header, or one without a non-empty
      second space-separated piece, is rejected with 401; a token the
      provider refuses with 403; otherwise the decoded identity passes. */
  function VerifyToken(header: Option<string>, verify: Verifier): (g: Gate)
    ensures g.Reject? ==> g.status == Unauthorized || g.status == Forbidden
    ensures g.Reject? && g.status == Unauthorized <==> header.None? || !HasToken(header.value)
    ensures g.Reject? && g.status == Forbidden <==>
              header.Some? && HasToken(header.value) && verify(HeaderToken(header.value).value).None?
    ensures g.Pass? ==> header.Some? && HasToken(header.value) &&
                        verify(HeaderToken(header.value).value) == Some(g.who)
  {
    if header.None? || header.value == "" then Reject(Unauthorized, UnauthorizedMessage)
    else
      var token := HeaderToken(header.value);
      if token.None? || token.value == "" then Reject(Unauthorized, UnauthorizedMessage)
      else match verify(token.value)
        case None => Reject(Forbidden, ForbiddenMessage)
        case Some(who) => Pass(who)
  }

  /** `header` is a first word, one space, a non-empty token without spaces,
      and then nothing or a space followed by anything. */
  predicate TokenShaped(header: string, scheme: string, token: string, rest: string)
  {
    && ' ' !in scheme && ' ' !in token && token != []
    && (rest == [] || rest[0] == ' ')
    && header == scheme + " " + token + rest
  }

  lemma ShapedHasToken(header: string, scheme: string, token: string, rest: string)
    requires TokenShaped(header, scheme, token, rest)
    ensures HasToken(header) && HeaderToken(header) == Some(token)
  {
    assert header == scheme + [' '] + token + rest;
    SecondPieceOf(scheme, token, rest, ' ');
  }

  /** A header passes the first stage exactly when it has a space and a
      non-empty run of non-space characters right after the first space. */
  lemma HasTokenShape(header: string)
    ensures HasToken(header) <==> exists scheme, token, rest :: TokenShaped(header, scheme, token, rest)
  {
    if HasToken(header) {
      SecondPieceShape(header, ' ');
      var token := HeaderToken(header).value;
      var head, tail :| PieceAfterFirstSeparator(header, head, token, tail, ' ');
      assert TokenShaped(header, head, token, tail);
    }
    if exists scheme, token, rest :: TokenShaped(header, scheme, token, rest) {
      var scheme, token, rest :| TokenShaped(header, scheme, token, rest);
      ShapedHasToken(header, scheme, token, rest);
    }
  }

  /** The scheme word is never checked: any first word leads to the same
      verdict for the same token. */
  lemma SchemeIgnored(scheme1: string, scheme2: string, token: string, verify: Verifier)
    requires ' ' !in scheme1 && ' ' !in scheme2 && ' ' !in token
    ensures VerifyToken(Some(scheme1 + " " + token), verify) == VerifyToken(Some(scheme2 + " " + token), verify)
  {
    assert scheme1 + " " + token == scheme1 + [' '] + token + [];
    assert scheme2 + " " + token == scheme2 + [' '] + token + [];
    SecondPieceOf(scheme1, token, [], ' ');
    SecondPieceOf(scheme2, token, [], ' ');
  }

  /** A well-formed `Bearer <token>` header is decided by the provider alone. */
  lemma BearerHeader(token: string, verify: Verifier)
    requires ' ' !in token && token != ""
    ensures VerifyToken(Some("Bearer " + token), verify) ==
              match verify(token)
              case None => Reject(Forbidden, ForbiddenMessage)
              case Some(who) => Pass(who)
  {
    assert "Bearer " + token == "Bearer" + [' '] + token + [];
    SecondPieceOf("Bearer", token, [], ' ');
  }

  /** Headers without a usable second piece are rejected with 401 before the
      provider is asked: "Bearer", "Bearer " and "Bearer  x" among them. */
  lemma MalformedHeadersUnauthorized(verify: Verifier)
    ensures VerifyToken(None, verify) == Reject(Unauthorized, UnauthorizedMessage)
    ensures VerifyToken(Some(""), verify) == Reject(Unauthorized, UnauthorizedMessage)
    ensures VerifyToken(Some("Bearer"), verify) == Reject(Unauthorized, UnauthorizedMessage)
    ensures VerifyToken(Some("Bearer "), verify) == Reject(Unauthorized, UnauthorizedMessage)
    ensures VerifyToken(Some("Bearer  x"), verify) == Reject(Unauthorized, UnauthorizedMessage)
  {
    assert ' ' !in "Bearer";
    assert "Bearer " == "Bearer" + [' '] + "" + "";
    SecondPieceOf("Bearer", "", "", ' ');
    assert "Bearer  x" == "Bearer" + [' '] + "" + " x";
    SecondPieceOf("Bearer", "", " x", ' ');
  }

  /** The email the admin guard looks up: the token's `email` claim, which the
      driver turns into null when the token carries none. */
  function ClaimedEmail(who: Identity): Value
  {
    match who.email
    case Some(e) => Str(e)
    case None => Null
  }

  predicate IsAdminDoc(e: Entry)
  {
    Field(e.doc, "role") == Some(Str("admin"))
  }

  /** The admin guard: the first user document whose email equals the
      caller's must exist and have `role` exactly `"admin"`. */
  function VerifyAdmin(users: Collection, who: Identity): (g: Gate)
    ensures g.Pass? ==> g.who == who
    ensures g.Reject? ==> g == Reject(Forbidden, NotAdminMessage)
    ensures g.Pass? ==> exists e :: e in users && KeyOf(e, "email") == ClaimedEmail(who) && IsAdminDoc(e)
  {
    var user := FindOne(users, Eq("email", ClaimedEmail(who)));
    if user.None? || !IsAdminDoc(user.value) then Reject(Forbidden, NotAdminMessage)
    else Pass(who)
  }

  /** At most one user document per email (a missing email counting as null). */
  predicate UniqueEmails(users: Collection)
  {
    forall i, j :: 0 <= i < j < |users| ==> KeyOf(users[i], "email") != KeyOf(users[j], "email")
  }

  /** With one user document per email, the admin guard passes exactly when
      some user with the caller's email has role `"admin"`. */
  lemma AdminGateExact(users: Collection, who: Identity)
    requires UniqueEmails(users)
    ensures VerifyAdmin(users, who).Pass? <==>
              exists e :: e in users && KeyOf(e, "email") == ClaimedEmail(who) && IsAdminDoc(e)
  {
    var f := Eq("email", ClaimedEmail(who));
    if e :| e in users && KeyOf(e, "email") == ClaimedEmail(who) && IsAdminDoc(e) {
      var found := FindOne(users, f);
      assert Matches(f, e);
      assert found.Some?;
      var i :| 0 <= i < |users| && users[i] == e;
      var j :| 0 <= j < |users| && users[j] == found.value;
      if i < j || j < i {
        assert false;
      }
    }
  }

  /** The owner check of the payments listing: the caller's email claim must
      equal the `email` query parameter under JavaScript's `!==`, where a
      missing claim and a missing parameter are both `undefined`. */
  function PaymentsOwnerCheck(who: Identity, param: Option<string>): (g: Gate)
    ensures g.Pass? <==> who.email == param
    ensures g.Pass? ==> g.who == who
    ensures g.Reject? ==> g == Reject(Forbidden, ForbiddenMessage)
  {
    if who.email != param then Reject(Forbidden, ForbiddenMessage) else Pass(who)
  }

  /** A caller with an email claim is refused when the parameter is absent or
      names someone else. */
  lemma OwnerCheckRefusesOthers(email: string, param: Option<string>)
    requires param != Some(email)
    ensures PaymentsOwnerCheck(Identity(Some(email)), param).Reject?
    ensures PaymentsOwnerCheck(Identity(Some(email)), param).status == Forbidden
  {
  }
}

=== FILE: bson_order.dfy ===
/** The order the document store sorts field values in (the BSON comparison
    order): values of different types compare by type, null < numbers <
    strings < booleans < dates, and values of one type compare by content.
    Strings compare by code point, which for UTF-8 is the store's binary
    order. A missing field sorts as null. */
module BsonOrder {
  import opened Json

  function TypeRank(v: Value): nat
  {
    match v
    case Null => 0
    case Num(_) => 1
    case Str(_) => 2
    case Bool(_) => 3
    case Date(_) => 4
  }

  /** Lexicographic order on strings. */
  predicate StrLeq(a: string, b: string)
  {
    a == [] || (b != [] && (a[0] < b[0] || (a[0] == b[0] && StrLeq(a[1..], b[1..]))))
  }

  /** `a` sorts no later than `b` in an ascending sort. */
  predicate Leq(a: Value, b: Value)
  {
    if TypeRank(a) != TypeRank(b) then TypeRank(a) < TypeRank(b)
    else match (a, b)
      case (Num(x), Num(y)) => x <= y
      case (Str(x), Str(y)) => StrLeq(x, y)
      case (Bool(x), Bool(y)) => !x || y
      case (Date(x), Date(y)) => x <= y
      case _ => true
  }

  lemma {:induction false} StrLeqTotal(a: string, b: string)
    ensures StrLeq(a, b) || StrLeq(b, a)
  {
    if a != [] && b != [] && a[0] == b[0] {
      StrLeqTotal(a[1..], b[1..]);
    }
  }

  lemma {:induction false} StrLeqTransitive(a: string, b: string, c: string)
    requires StrLeq(a, b) && StrLeq(b, c)
    ensures StrLeq(a, c)
  {
    if a != [] && b != [] && c != [] && a[0] == b[0] && b[0] == c[0] {
      StrLeqTransitive(a[1..], b[1..], c[1..]);
    }
  }

  lemma {:induction false} StrLeqAntisymmetric(a: string, b: string)
    requires StrLeq(a, b) && StrLeq(b, a)
    ensures a == b
  {
    if a != [] && b != [] {
      StrLeqAntisymmetric(a[1..], b[1..]);
      assert a == [a[0]] + a[1..] && b == [b[0]] + b[1..];
    }
  }

  /** Any two values are comparable. */
  lemma LeqTotal(a: Value, b: Value)
    ensures Leq(a, b) || Leq(b, a)
  {
    if a.Str? && b.Str? {
      StrLeqTotal(a.s, b.s);
    }
  }

  lemma LeqTransitive(a: Value, b: Value, c: Value)
    requires Leq(a, b) && Leq(b, c)
    ensures Leq(a, c)
  {
    if a.Str? && b.Str? && c.Str? {
      StrLeqTransitive(a.s, b.s, c.s);
    }
  }

  /** Only equal values sort as ties: the order is a total order on values. */
  lemma LeqAntisymmetric(a: Value, b: Value)
    requires Leq(a, b) && Leq(b, a)
    ensures a == b
  {
    if a.Str? && b.Str? {
      StrLeqAntisymmetric(a.s, b.s);
    }
  }
}

=== FILE: collections.dfy ===
/** One collection of the document store and the driver operations the route
    handlers call on it: `find`, `findOne`, `insertOne`, `updateOne` with
    `$set`, `deleteOne`, `sort`, `project` and `limit`. A collection is the
    sequence of its documents in the store's natural order; each document
    carries its `_id`. */
module Collections {
  import opened Json
  import opened ObjectIds
  import opened BsonOrder

  datatype Entry = Entry(id: Id, doc: Doc)

  type Collection = seq<Entry>

  /** Errors the driver throws: inserting an `_id` that is already stored, and
      building an ObjectId from a malformed value. */
  datatype DriverError = DuplicateKey | BadObjectId

  datatype Result<+T> = Ok(value: T) | Err(error: DriverError)

  /** A query filter: `{}`, `{ _id: id }`, `{ field: value }`, and
      `{ field: { $regex: p, $options: 'i' } }`, the last given by the
      predicate on strings that the compiled pattern accepts. */
  datatype Filter =
    | Any
    | IdIs(id: Id)
    | Eq(field: string, value: Value)
    | Like(field: string, accepts: string -> bool)

  /** Whether a document matches a filter. An equality on null also matches a
      document where the field is missing; a pattern only matches strings. */
  predicate Matches(f: Filter, e: Entry)
  {
    match f
    case Any => true
    case IdIs(id) => e.id == id
    case Eq(name, v) => KeyOf(e, name) == v
    case Like(name, accepts) => name in e.doc && e.doc[name].Str? && accepts(e.doc[name].s)
  }

  /** The store's unique index on `_id`. */
  predicate UniqueIds(c: Collection)
  {
    forall i, j :: 0 <= i < j < |c| ==> c[i].id != c[j].id
  }

  predicate HasId(c: Collection, id: Id)
  {
    exists i :: 0 <= i < |c| && c[i].id == id
  }

  /** Position of the first document, in natural order, that matches. */
  function FirstMatch(c: Collection, f: Filter): (r: Option<nat>)
    ensures r.Some? ==> r.value < |c| && Matches(f, c[r.value])
    ensures r.Some? ==> forall j :: 0 <= j < r.value ==> !Matches(f, c[j])
    ensures r.None? <==> forall j :: 0 <= j < |c| ==> !Matches(f, c[j])
  {
    if c == [] then None
    else if Matches(f, c[0]) then Some(0)
    else match FirstMatch(c[1..], f)
      case None => None
      case Some(k) => Some(k + 1)
  }

  /** A matching position with no match before it is the first match. */
  lemma FirstMatchAt(c: Collection, f: Filter, i: nat)
    requires i < |c| && Matches(f, c[i])
    requires forall j :: 0 <= j < i ==> !Matches(f, c[j])
    ensures FirstMatch(c, f) == Some(i)
  {
  }

  /** `find(filter).toArray()` without a sort: the matching documents in
      natural order. */
  function Find(c: Collection, f: Filter): (r: seq<Entry>)
    ensures forall e :: e in r <==> e in c && Matches(f, e)
    ensures |r| <= |c|
    ensures UniqueIds(c) ==> UniqueIds(r)
  {
    if c == [] then []
    else
      var rest := Find(c[1..], f);
      if Matches(f, c[0]) then
        assert forall e :: e in rest ==> e in c[1..];
        assert forall j :: 0 <= j < |rest| ==> rest[j] in c[1..];
        [c[0]] + rest
      else rest
  }

  /** A matching first document heads the result of `find`. */
  lemma FindKeepsHead(c: Collection, f: Filter)
    requires c != [] && Matches(f, c[0])
    ensures Find(c, f) == [c[0]] + Find(c[1..], f)
  {
  }

  /** The empty filter `{}` finds every document, in natural order. */
  lemma {:induction false} FindAnyIsAll(c: Collection)
    ensures Find(c, Any) == c
  {
    if c != [] {
      FindAnyIsAll(c[1..]);
      FindKeepsHead(c, Any);
      assert c == [c[0]] + c[1..];
    }
  }

  /** `findOne(filter)`: the first matching document, or null. */
  function FindOne(c: Collection, f: Filter): (r: Option<Entry>)
    ensures r.Some? ==> r.value in c && Matches(f, r.value)
    ensures r.None? <==> forall e :: e in c ==> !Matches(f, e)
    ensures r.Some? ==> Find(c, f) != [] && r.value == Find(c, f)[0]
    ensures forall i :: 0 <= i < |c| && Matches(f, c[i]) && (forall j :: 0 <= j < i ==> !Matches(f, c[j])) ==>
              r == Some(c[i])
  {
    forall i | 0 <= i < |c| && Matches(f, c[i]) && (forall j :: 0 <= j < i ==> !Matches(f, c[j]))
      ensures FirstMatch(c, f) == Some(i)
    {
      FirstMatchAt(c, f, i);
    }
    match FirstMatch(c, f)
    case None => None
    case Some(k) =>
      FirstMatchHeadsFind(c, f);
      Some(c[k])
  }

  lemma {:induction false} FirstMatchHeadsFind(c: Collection, f: Filter)
    requires FirstMatch(c, f).Some?
    ensures Find(c, f) != [] && Find(c, f)[0] == c[FirstMatch(c, f).value]
  {
    assert c != [];
    if Matches(f, c[0]) {
      assert FirstMatch(c, f) == Some(0);
      assert Find(c, f) == [c[0]] + Find(c[1..], f);
    } else {
      var k := FirstMatch(c[1..], f).value;
      assert FirstMatch(c, f) == Some(k + 1);
      FirstMatchHeadsFind(c[1..], f);
      assert Find(c, f) == Find(c[1..], f);
      assert c[1..][k] == c[k + 1];
    }
  }

  /** `insertOne(doc)` with the `_id` the driver assigned: refused with a
      duplicate-key error when the id is already stored, otherwise the
      document is stored verbatim after all others. */
  function InsertOne(c: Collection, id: Id, doc: Doc): (r: Result<Collection>)
    ensures r.Err? <==> HasId(c, id)
    ensures r.Err? ==> r.error == DuplicateKey
    ensures r.Ok? ==> |r.value| == |c| + 1 && r.value[..|c|] == c && r.value[|c|] == Entry(id, doc)
    ensures r.Ok? && UniqueIds(c) ==> UniqueIds(r.value)
  {
    if FirstMatch(c, IdIs(id)).Some? then Err(DuplicateKey)
    else Ok(c + [Entry(id, doc)])
  }

  /** `$set`: the fields of `changes` take their new values, every other field
      keeps its old one. */
  function SetFields(d: Doc, changes: Doc): (r: Doc)
    ensures r.Keys == d.Keys + changes.Keys
    ensures forall name :: name in changes ==> r[name] == changes[name]
    ensures forall name :: name in d && name !in changes ==> r[name] == d[name]
  {
    d + changes
  }

  datatype Updated = Updated(items: Collection, matched: nat, modified: nat)

  /** `updateOne(filter, { $set: changes })`: the first matching document gets the
      fields of `changes`; `modified` is 0 when that changed nothing. */
  function UpdateOne(c: Collection, f: Filter, changes: Doc): (u: Updated)
    ensures |u.items| == |c|
    ensures forall i :: 0 <= i < |c| ==> u.items[i].id == c[i].id
    ensures u.matched <= 1 && u.modified <= u.matched
    ensures u.matched == 0 <==> forall e :: e in c ==> !Matches(f, e)
    ensures u.matched == 0 ==> u.items == c
    ensures u.matched == 1 ==>
              var k := FirstMatch(c, f).value;
              && u.items[k].doc == SetFields(c[k].doc, changes)
              && (forall i :: 0 <= i < |c| && i != k ==> u.items[i] == c[i])
              && (u.modified == 1 <==> u.items[k] != c[k])
  {
    match FirstMatch(c, f)
    case None => Updated(c, 0, 0)
    case Some(k) =>
      var e := Entry(c[k].id, SetFields(c[k].doc, changes));
      Updated(c[k := e], 1, if e != c[k] then 1 else 0)
  }

  /** With the unique index on `_id`, the document with id `id` is the only
      one an update by that id can touch, and the update matches exactly when
      that id is stored. */
  lemma UpdateById(c: Collection, id: Id, changes: Doc)
    requires UniqueIds(c)
    ensures UpdateOne(c, IdIs(id), changes).matched == 1 <==> HasId(c, id)
    ensures var u := UpdateOne(c, IdIs(id), changes);
            forall i :: 0 <= i < |c| ==>
              u.items[i] == if c[i].id == id then Entry(id, SetFields(c[i].doc, changes)) else c[i]
  {
    UpdateByIdMatches(c, id, changes);
    var u := UpdateOne(c, IdIs(id), changes);
    if u.matched == 1 {
      var k := FirstMatch(c, IdIs(id)).value;
      forall i | 0 <= i < |c| && i != k
        ensures c[i].id != id
      {
        if i < k || k < i {
        }
      }
    }
  }

  /** An update by id matches exactly when a document with that id is stored. */
  lemma UpdateByIdMatches(c: Collection, id: Id, changes: Doc)
    ensures UpdateOne(c, IdIs(id), changes).matched == 1 <==> HasId(c, id)
  {
    if HasId(c, id) {
      var i :| 0 <= i < |c| && c[i].id == id;
      assert Matches(IdIs(id), c[i]);
    }
  }

  /** `updateOne({ _id: id }, { $set: { name: v } })` under the unique index:
      it matches exactly when the id is stored, and only that document gets
      the new field value. */
  lemma SetFieldById(c: Collection, id: Id, name: string, v: Value)
    requires UniqueIds(c)
    ensures var u := UpdateOne(c, IdIs(id), map[name := v]);
            && (u.matched == 1 <==> HasId(c, id))
            && forall i :: 0 <= i < |c| ==>
                 u.items[i] == if c[i].id == id then Entry(id, c[i].doc[name := v]) else c[i]
  {
    var changes := map[name := v];
    UpdateById(c, id, changes);
    forall d: Doc
      ensures SetFields(d, changes) == d[name := v]
    {
      assert SetFields(d, changes).Keys == d[name := v].Keys;
    }
    UpdateByIdMatches(c, id, changes);
  }

  /** Updates keep the ids and hence the unique index. */
  lemma UpdateKeepsUniqueIds(c: Collection, f: Filter, changes: Doc)
    requires UniqueIds(c)
    ensures UniqueIds(UpdateOne(c, f, changes).items)
  {
  }

  /** A `$set` that does not name `field` leaves that field of every
      document as it was. */
  lemma UpdateKeepsField(c: Collection, f: Filter, changes: Doc, field: string)
    requires field !in changes
    ensures var u := UpdateOne(c, f, changes);
            forall i :: 0 <= i < |c| ==> KeyOf(u.items[i], field) == KeyOf(c[i], field)
  {
  }

  datatype Deleted = Deleted(items: Collection, deleted: nat)

  /** `deleteOne(filter)`: removes the first matching document. */
  function DeleteOne(c: Collection, f: Filter): (d: Deleted)
    ensures d.deleted <= 1
    ensures d.deleted == 0 <==> forall e :: e in c ==> !Matches(f, e)
    ensures d.deleted == 0 ==> d.items == c
    ensures d.deleted == 1 ==>
              var k := FirstMatch(c, f).value;
              |d.items| == |c| - 1 &&
              forall i :: 0 <= i < |d.items| ==> d.items[i] == (if i < k then c[i] else c[i + 1])
  {
    match FirstMatch(c, f)
    case None => Deleted(c, 0)
    case Some(k) => Deleted(c[..k] + c[k + 1..], 1)
  }

  lemma RemoveAtMembers(c: Collection, k: nat)
    requires UniqueIds(c) && k < |c|
    ensures UniqueIds(c[..k] + c[k + 1..])
    ensures forall e :: e in c[..k] + c[k + 1..] <==> e in c && e.id != c[k].id
  {
    var r := c[..k] + c[k + 1..];
    assert forall i :: 0 <= i < |r| ==> r[i] == (if i < k then c[i] else c[i + 1]);
    forall e | e in c && e.id != c[k].id
      ensures e in r
    {
      var i :| 0 <= i < |c| && c[i] == e;
      if i < k {
        assert r[i] == e;
      } else {
        assert r[i - 1] == e;
      }
    }
  }

  /** A delete by id removes exactly the document with that id. */
  lemma DeleteById(c: Collection, id: Id)
    requires UniqueIds(c)
    ensures var d := DeleteOne(c, IdIs(id));
            UniqueIds(d.items) && forall e :: e in d.items <==> e in c && e.id != id
  {
    var d := DeleteOne(c, IdIs(id));
    if d.deleted == 1 {
      RemoveAtMembers(c, FirstMatch(c, IdIs(id)).value);
    }
  }

  /** `project({ a: 1, b: 1, ... })`: `_id` is kept, and of the fields only
      those listed. */
  function Project(e: Entry, fields: set<string>): (r: Entry)
    ensures r.id == e.id
    ensures r.doc.Keys == e.doc.Keys * fields
    ensures forall name :: name in r.doc ==> r.doc[name] == e.doc[name]
  {
    Entry(e.id, map name | name in e.doc && name in fields :: e.doc[name])
  }

  function ProjectAll(s: seq<Entry>, fields: set<string>): (r: seq<Entry>)
    ensures |r| == |s|
    ensures forall i :: 0 <= i < |s| ==> r[i] == Project(s[i], fields)
  {
    seq(|s|, i requires 0 <= i < |s| => Project(s[i], fields))
  }

  /** `limit(n)`: the first `n` documents. */
  function Limit(s: seq<Entry>, n: nat): (r: seq<Entry>)
    ensures |r| == if |s| < n then |s| else n
    ensures r == s[..|r|]
  {
    if |s| < n then s else s[..n]
  }

  /** The value a field of a document is compared as, by equality filters
      and by sorts: a missing field counts as null. */
  function KeyOf(e: Entry, field: string): Value
  {
    Stored(Field(e.doc, field))
  }

  /** `a` may precede `b` in a sort on `field`, ascending (`{ field: 1 }`) or
      descending (`{ field: -1 }`). */
  predicate InOrder(a: Entry, b: Entry, field: string, ascending: bool)
  {
    if ascending then Leq(KeyOf(a, field), KeyOf(b, field))
    else Leq(KeyOf(b, field), KeyOf(a, field))
  }

  predicate Sorted(s: seq<Entry>, field: string, ascending: bool)
  {
    forall i, j :: 0 <= i < j < |s| ==> InOrder(s[i], s[j], field, ascending)
  }

  lemma InOrderTotal(a: Entry, b: Entry, field: string, ascending: bool)
    ensures InOrder(a, b, field, ascending) || InOrder(b, a, field, ascending)
  {
    LeqTotal(KeyOf(a, field), KeyOf(b, field));
  }

  lemma InOrderTransitive(a: Entry, b: Entry, c: Entry, field: string, ascending: bool)
    requires InOrder(a, b, field, ascending) && InOrder(b, c, field, ascending)
    ensures InOrder(a, c, field, ascending)
  {
    if ascending {
      LeqTransitive(KeyOf(a, field), KeyOf(b, field), KeyOf(c, field));
    } else {
      LeqTransitive(KeyOf(c, field), KeyOf(b, field), KeyOf(a, field));
    }
  }

  /** A document that may precede the head of a sorted list may precede all of it. */
  lemma BeforeHeadBeforeAll(x: Entry, s: seq<Entry>, field: string, ascending: bool)
    requires Sorted(s, field, ascending) && s != [] && InOrder(x, s[0], field, ascending)
    ensures forall j :: 0 <= j < |s| ==> InOrder(x, s[j], field, ascending)
  {
    forall j | 0 < j < |s| {
      InOrderTransitive(x, s[0], s[j], field, ascending);
    }
  }

  /** Prepending a document that may precede every element keeps a list sorted. */
  lemma ConsSorted(x: Entry, s: seq<Entry>, field: string, ascending: bool)
    requires Sorted(s, field, ascending)
    requires forall j :: 0 <= j < |s| ==> InOrder(x, s[j], field, ascending)
    ensures Sorted([x] + s, field, ascending)
  {
    var r := [x] + s;
    forall i, j | 0 <= i < j < |r|
      ensures InOrder(r[i], r[j], field, ascending)
    {
      assert r[j] == s[j - 1];
      if i > 0 {
        assert r[i] == s[i - 1];
      }
    }
  }

  /** A document that may precede `x` and every element of `t` may precede
      every element of any rearrangement of `t` with `x` added. */
  lemma BeforeAllOfRearrangement(y: Entry, r: seq<Entry>, t: seq<Entry>, x: Entry, field: string, ascending: bool)
    requires multiset(r) == multiset(t) + multiset{x}
    requires InOrder(y, x, field, ascending)
    requires forall j :: 0 <= j < |t| ==> InOrder(y, t[j], field, ascending)
    ensures forall j :: 0 <= j < |r| ==> InOrder(y, r[j], field, ascending)
  {
    forall j | 0 <= j < |r|
      ensures InOrder(y, r[j], field, ascending)
    {
      assert r[j] in multiset(r);
      if r[j] != x {
        assert r[j] in multiset(t);
        var k :| 0 <= k < |t| && t[k] == r[j];
      }
    }
  }

  /** One step of insertion sort: `x` goes before the first element it may
      precede. */
  function InsertInOrder(x: Entry, s: seq<Entry>, field: string, ascending: bool): (r: seq<Entry>)
    requires Sorted(s, field, ascending)
    ensures Sorted(r, field, ascending)
    ensures multiset(r) == multiset(s) + multiset{x}
  {
    if s == [] then [x]
    else if InOrder(x, s[0], field, ascending) then
      BeforeHeadBeforeAll(x, s, field, ascending);
      ConsSorted(x, s, field, ascending);
      [x] + s
    else
      var tail := s[1..];
      var rest := InsertInOrder(x, tail, field, ascending);
      assert s == [s[0]] + tail;
      assert forall j :: 0 <= j < |tail| ==> InOrder(s[0], tail[j], field, ascending) by {
        forall j | 0 <= j < |tail|
          ensures InOrder(s[0], tail[j], field, ascending)
        {
          assert tail[j] == s[j + 1];
        }
      }
      InOrderTotal(x, s[0], field, ascending);
      BeforeAllOfRearrangement(s[0], rest, tail, x, field, ascending);
      ConsSorted(s[0], rest, field, ascending);
      [s[0]] + rest
  }

  /** `sort({ field: ±1 })`: the same documents, ordered by the field. Ties
      keep their natural order, which is one of the orders the store may
      return for ties. */
  function SortBy(s: seq<Entry>, field: string, ascending: bool): (r: seq<Entry>)
    ensures Sorted(r, field, ascending)
    ensures multiset(r) == multiset(s)
  {
    if s == [] then []
    else
      assert s == [s[0]] + s[1..];
      InsertInOrder(s[0], SortBy(s[1..], field, ascending), field, ascending)
  }

  /** With unique ids, each entry occurs at most once. */
  lemma {:induction false} UniqueIdsOccurOnce(s: seq<Entry>, x: Entry)
    requires UniqueIds(s)
    ensures multiset(s)[x] <= 1
  {
    if s != [] {
      assert s == [s[0]] + s[1..];
      UniqueIdsOccurOnce(s[1..], x);
      if s[0] == x {
        assert x !in s[1..] by {
          forall j | 0 <= j < |s[1..]|
            ensures s[1..][j] != x
          {
            assert s[1..][j] == s[j + 1];
          }
        }
      }
    }
  }

  /** An entry at two positions occurs at least twice. */
  lemma TwiceInMultiset(r: seq<Entry>, i: nat, j: nat)
    requires i < j < |r| && r[i] == r[j]
    ensures multiset(r)[r[i]] >= 2
  {
    assert r == r[..j] + r[j..];
    assert r[i] in r[..j];
    assert r[j] in r[j..];
    assert multiset(r) == multiset(r[..j]) + multiset(r[j..]);
  }

  /** Sorting keeps ids unique: the result is a permutation of the input, in
      which every entry occurs once. */
  lemma SortKeepsUniqueIds(s: seq<Entry>, field: string, ascending: bool)
    requires UniqueIds(s)
    ensures UniqueIds(SortBy(s, field, ascending))
  {
    var r := SortBy(s, field, ascending);
    forall i, j | 0 <= i < j < |r|
      ensures r[i].id != r[j].id
    {
      if r[i].id == r[j].id {
        assert r[i] in multiset(s) && r[j] in multiset(s);
        var a :| 0 <= a < |s| && s[a] == r[i];
        var b :| 0 <= b < |s| && s[b] == r[j];
        assert a == b;
        TwiceInMultiset(r, i, j);
        UniqueIdsOccurOnce(s, r[i]);
        assert false;
      }
    }
  }
}

=== FILE: json.dfy ===
/** JSON-like values as the server sees them after body parsing and as the
    document store keeps them. */
module Json {

  /** A value that may be absent. `None` is JavaScript's `undefined`: the
      field, parameter or claim was not there. */
  datatype Option<+T> = None | Some(value: T)

  /** A field value. `Date(ms)` is a JavaScript `Date` (milliseconds since the
      epoch). Numbers are integers here; nested objects and arrays are not
      modelled. */
  datatype Value = Null | Bool(b: bool) | Num(n: int) | Str(s: string) | Date(ms: int)

  /** A document: its named fields. The store keeps the `_id` beside the
      fields (see `Collections.Entry`), not among them. */
  type Doc = map<string, Value>

  /** JavaScript truthiness: `null`, `false`, `0` and `""` are falsy. */
  predicate Truthy(v: Value)
  {
    match v
    case Null => false
    case Bool(b) => b
    case Num(n) => n != 0
    case Str(s) => s != ""
    case Date(_) => true
  }

  /** Truthiness of a value that may be `undefined`. */
  predicate TruthyOpt(o: Option<Value>)
  {
    o.Some? && Truthy(o.value)
  }

  /** Property access `d.name`: `None` when the field is absent. */
  function Field(d: Doc, name: string): Option<Value>
  {
    if name in d then Some(d[name]) else None
  }

  /** The value the database driver writes or compares for a JavaScript value
      that may be `undefined`: the driver serialises `undefined` as null. */
  function Stored(o: Option<Value>): Value
  {
    match o
    case Some(v) => v
    case None => Null
  }
}

=== FILE: object_ids.dfy ===
/** The store's document identifiers: 12-byte ObjectIds, written as 24
    hexadecimal digits in URLs and request bodies. The route handlers turn a
    path parameter or body field into an id with `new ObjectId(x)`, which
    throws on malformed input. */
module ObjectIds {
  import opened Json

  /** 16^24 = 2^96: the number of distinct 12-byte ids. */
  const IdBound: nat := 0x1_0000_0000_0000_0000_0000_0000

  /** Number of hex digits in the string form of an id. */
  const HexLength: nat := 24

  type Id = n: nat | n < IdBound

  predicate IsHexDigit(c: char)
  {
    '0' <= c <= '9' || 'a' <= c <= 'f' || 'A' <= c <= 'F'
  }

  predicate IsLowerHexDigit(c: char)
  {
    '0' <= c <= '9' || 'a' <= c <= 'f'
  }

  predicate AllHex(s: string)
  {
    forall i :: 0 <= i < |s| ==> IsHexDigit(s[i])
  }

  predicate AllLowerHex(s: string)
  {
    forall i :: 0 <= i < |s| ==> IsLowerHexDigit(s[i])
  }

  function Pow16(k: nat): (p: nat)
    ensures p >= 1
  {
    if k == 0 then 1 else 16 * Pow16(k - 1)
  }

  function DigitValue(c: char): (d: nat)
    requires IsHexDigit(c)
    ensures d < 16
  {
    if '0' <= c <= '9' then (c - '0') as nat
    else if 'a' <= c <= 'f' then (c - 'a') as nat + 10
    else (c - 'A') as nat + 10
  }

  /** The lower-case digit that `toHexString` writes for `d`. */
  function HexChar(d: nat): (c: char)
    requires d < 16
    ensures IsLowerHexDigit(c) && IsHexDigit(c)
    ensures DigitValue(c) == d
  {
    if d < 10 then ('0' as int + d) as char else ('a' as int + d - 10) as char
  }

  /** The number a string of hex digits denotes, most significant digit first. */
  function HexValue(s: string): (n: nat)
    requires AllHex(s)
    ensures n < Pow16(|s|)
  {
    if s == [] then 0
    else HexValue(s[..|s| - 1]) * 16 + DigitValue(s[|s| - 1])
  }

  /** The `k` low-order hex digits of `n`, lower case, zero-padded. */
  function HexDigits(n: nat, k: nat): (s: string)
    ensures |s| == k
    ensures AllLowerHex(s) && AllHex(s)
  {
    if k == 0 then [] else HexDigits(n / 16, k - 1) + [HexChar(n % 16)]
  }

  /** `ObjectId.prototype.toHexString`. */
  function ToHexString(id: Id): (s: string)
    ensures |s| == HexLength && AllLowerHex(s)
  {
    HexDigits(id, HexLength)
  }

  lemma {:induction false} Pow16Add(a: nat, b: nat)
    ensures Pow16(a + b) == Pow16(a) * Pow16(b)
  {
    if a > 0 {
      Pow16Add(a - 1, b);
    }
  }

  lemma IdBoundIsPow16()
    ensures Pow16(HexLength) == IdBound
  {
    assert Pow16(6) == 0x100_0000;
    Pow16Add(6, 6);
    Pow16Add(12, 12);
  }

  /** `new ObjectId(s)` for a string `s`: exactly 24 hex digits of either
      case, otherwise the constructor throws (`None`). */
  function ParseHexId(s: string): (r: Option<Id>)
    ensures r.Some? <==> |s| == HexLength && AllHex(s)
    ensures r.Some? ==> r.value == HexValue(s)
  {
    if |s| == HexLength && AllHex(s) then
      IdBoundIsPow16();
      Some(HexValue(s))
    else None
  }

  /** `new ObjectId(v)` for a value taken from a request body. A missing or
      null value, or a number, makes the driver generate a fresh id (passed in
      as `generated`; for a number the driver uses it as the timestamp part);
      a string must be 24 hex digits; any other value throws (`None`). */
  function ObjectIdOf(v: Option<Value>, generated: Id): (r: Option<Id>)
    ensures v.Some? && v.value.Str? ==> r == ParseHexId(v.value.s)
    ensures v.None? || v.value.Null? || v.value.Num? ==> r == Some(generated)
    ensures v.Some? && (v.value.Bool? || v.value.Date?) ==> r.None?
  {
    match v
    case None => Some(generated)
    case Some(Null) => Some(generated)
    case Some(Num(_)) => Some(generated)
    case Some(Str(s)) => ParseHexId(s)
    case Some(_) => None
  }

  lemma {:induction false} HexDigitsValue(n: nat, k: nat)
    requires n < Pow16(k)
    ensures HexValue(HexDigits(n, k)) == n
  {
    if k > 0 {
      var s := HexDigits(n, k);
      assert s[..|s| - 1] == HexDigits(n / 16, k - 1);
      assert s[|s| - 1] == HexChar(n % 16);
      HexDigitsValue(n / 16, k - 1);
    }
  }

  /** Printing an id and parsing it back gives the same id. */
  lemma ParseToHexString(id: Id)
    ensures ParseHexId(ToHexString(id)) == Some(id)
  {
    IdBoundIsPow16();
    HexDigitsValue(id, HexLength);
  }

  lemma {:induction false} HexValueDigits(s: string)
    requires AllLowerHex(s)
    ensures HexDigits(HexValue(s), |s|) == s
  {
    if s != [] {
      var p := s[..|s| - 1];
      var c := s[|s| - 1];
      assert AllLowerHex(p);
      var n := HexValue(s);
      assert n / 16 == HexValue(p) && n % 16 == DigitValue(c);
      HexValueDigits(p);
      assert HexChar(DigitValue(c)) == c;
      assert s == p + [c];
    }
  }

  /** A lower-case id string is exactly the printed form of the id it parses to. */
  lemma ToHexStringOfParse(s: string)
    requires |s| == HexLength && AllLowerHex(s)
    ensures ParseHexId(s).Some? && ToHexString(ParseHexId(s).value) == s
  {
    HexValueDigits(s);
  }
}

=== FILE: properties.dfy ===
/** Properties of the whole server that relate several requests or hold for
    every route: the store invariant, the guard outcomes, idempotent user
    creation, the role lookup, the payment flow and the search cap. */
module ServerProperties {
  import opened Json
  import opened ObjectIds
  import opened BsonOrder
  import opened Collections
  import opened Auth
  import opened Routes
  import opened Server

  /** The store invariant: the unique `_id` index of every collection, and at
      most one user per email. */
  predicate WellFormed(db: Db)
  {
    && UniqueIds(db.parcels) && UniqueIds(db.payments) && UniqueIds(db.users) && UniqueIds(db.riders)
    && UniqueEmails(db.users)
  }

  lemma CreateUserKeepsEmailsUnique(db: Db, body: Doc, env: Env)
    requires WellFormed(db)
    ensures WellFormed(CreateUser(db, body, env).db)
  {
    var s := CreateUser(db, body, env);
    var key := Stored(Field(body, "email"));
    if s.db.users != db.users {
      var users := s.db.users;
      assert !EmailTaken(db.users, key);
      forall i, j | 0 <= i < j < |users|
        ensures KeyOf(users[i], "email") != KeyOf(users[j], "email")
      {
        if j == |db.users| {
          assert users[i] == db.users[i];
          assert KeyOf(users[j], "email") == key;
          assert db.users[i] in db.users;
        } else {
          assert users[i] == db.users[i] && users[j] == db.users[j];
        }
      }
    }
  }

  lemma UpdateRoleKeepsEmailsUnique(db: Db, id: string, body: Doc)
    requires WellFormed(db)
    ensures WellFormed(UpdateRole(db, id, body).db)
  {
    var s := UpdateRole(db, id, body);
    if ValidRole(Field(body, "role")) && ParseHexId(id).Some? {
      var key := ParseHexId(id).value;
      var changes := map["role" := Field(body, "role").value];
      assert s.db.users == UpdateOne(db.users, IdIs(key), changes).items;
      UpdateKeepsField(db.users, IdIs(key), changes, "email");
      UpdateKeepsUniqueIds(db.users, IdIs(key), changes);
    }
  }

  /** Every request keeps the store invariant. */
  lemma HandlePreservesWellFormed(db: Db, req: Request, env: Env)
    requires WellFormed(db)
    ensures WellFormed(Handle(db, req, env).db)
  {
    var s := Handle(db, req, env);
    if s.db != db {
      match req.route
      case DeleteParcelRoute(id) =>
        if ParseHexId(id).Some? {
          DeleteById(db.parcels, ParseHexId(id).value);
        }
      case RecordPaymentRoute(body) =>
        var key := ObjectIdOf(Field(body, "parcelId"), env.generatedId);
        if !HasId(db.payments, env.newId) && key.Some? {
          UpdateKeepsUniqueIds(db.parcels, IdIs(key.value), PaidFields(LedgerEntry(body, env)));
        }
      case CreateUserRoute(body) =>
        CreateUserKeepsEmailsUnique(db, body, env);
      case UpdateRoleRoute(id, body) =>
        UpdateRoleKeepsEmailsUnique(db, id, body);
      case UpdateRiderRoute(id, body) =>
        if ParseHexId(id).Some? {
          UpdateKeepsUniqueIds(db.riders, IdIs(ParseHexId(id).value), map["status" := Stored(Field(body, "status"))]);
        }
      case _ =>
    }
  }

  /** A guarded route without an Authorization header is answered 401 and
      changes nothing. */
  lemma MissingHeaderUnauthorized(db: Db, route: Route, env: Env)
    requires GuardOf(route) != Open
    ensures Handle(db, Request(None, route), env) == Step(db, Reply(Unauthorized, Message(UnauthorizedMessage)))
  {
    assert VerifyToken(None, env.verify) == Reject(Unauthorized, UnauthorizedMessage);
  }

  /** A guarded route whose token the identity provider refuses is answered
      403 and changes nothing, whatever scheme word precedes the token. */
  lemma RefusedTokenForbidden(db: Db, route: Route, scheme: string, token: string, env: Env)
    requires GuardOf(route) != Open
    requires ' ' !in scheme && ' ' !in token && token != ""
    requires env.verify(token).None?
    ensures Handle(db, Request(Some(scheme + " " + token), route), env) ==
              Step(db, Reply(Forbidden, Message(ForbiddenMessage)))
  {
    SchemeIgnored(scheme, "Bearer", token, env.verify);
    BearerHeader(token, env.verify);
    assert "Bearer" + " " + token == "Bearer " + token;
    assert VerifyToken(Some(scheme + " " + token), env.verify) == Reject(Forbidden, ForbiddenMessage);
  }

  /** The active-riders listing is served exactly when the token passes and
      a user with the caller's email has role "admin"; otherwise the caller
      gets 401 or 403. */
  lemma ActiveRidersAdminOnly(db: Db, header: Option<string>, env: Env)
    requires WellFormed(db)
    ensures var s := Handle(db, Request(header, ActiveRidersRoute), env);
            var token := VerifyToken(header, env.verify);
            && s.db == db
            && (s.outcome.status == OK <==>
                  token.Pass? &&
                  exists e :: e in db.users && KeyOf(e, "email") == ClaimedEmail(token.who) && IsAdminDoc(e))
            && (s.outcome.status != OK ==> s.outcome.status == Unauthorized || s.outcome.status == Forbidden)
  {
    var token := VerifyToken(header, env.verify);
    if token.Pass? {
      AdminGateExact(db.users, token.who);
    }
  }

  /** Posting the same user twice: the second post reports that the user
      exists and changes nothing, and the store holds exactly one user with
      that email afterwards. */
  lemma CreateUserIdempotent(db: Db, body: Doc, env1: Env, env2: Env)
    requires WellFormed(db)
    requires !Handle(db, Request(None, CreateUserRoute(body)), env1).outcome.Crash?
    ensures var s1 := Handle(db, Request(None, CreateUserRoute(body)), env1);
            var s2 := Handle(s1.db, Request(None, CreateUserRoute(body)), env2);
            && s2 == Step(s1.db, Reply(OK, AlreadyExists(UserExistsMessage)))
            && EmailTaken(s1.db.users, Stored(Field(body, "email")))
            && UniqueEmails(s1.db.users)
  {
    var s1 := Handle(db, Request(None, CreateUserRoute(body)), env1);
    var key := Stored(Field(body, "email"));
    CreateUserKeepsEmailsUnique(db, body, env1);
    if !EmailTaken(db.users, key) {
      var last := s1.db.users[|db.users|];
      assert last == Entry(env1.newId, body);
      assert last in s1.db.users && KeyOf(last, "email") == key;
    }
  }

  /** With one user per email, the role lookup answers the stored role of
      the user with that email when it is truthy, and "user" otherwise. */
  lemma RoleLookup(db: Db, email: string, e: Entry)
    requires UniqueEmails(db.users)
    requires e in db.users && KeyOf(e, "email") == Str(email)
    ensures GetRole(db, email).body.role ==
              if TruthyOpt(Field(e.doc, "role")) then e.doc["role"] else Str("user")
  {
    var found := FindOne(db.users, Eq("email", Str(email)));
    assert Matches(Eq("email", Str(email)), e);
    var i :| 0 <= i < |db.users| && db.users[i] == e;
    var j :| 0 <= j < |db.users| && db.users[j] == found.value;
    if i < j || j < i {
      assert false;
    }
  }

  /** A parcel created through POST /parcels is found by GET /parcels/:id
      under the printed form of its id, stamped with `createdAt` and with its
      `payment` field as the client sent it (absent unless sent). */
  lemma ParcelRoundTrip(db: Db, body: Doc, env: Env, header: Option<string>)
    requires WellFormed(db) && !HasId(db.parcels, env.newId)
    requires VerifyToken(header, env.verify).Pass?
    ensures var s1 := Handle(db, Request(None, CreateParcelRoute(body)), env);
            var s2 := Handle(s1.db, Request(header, GetParcelRoute(ToHexString(env.newId))), env);
            && s1.outcome == Reply(Created, Inserted(env.newId))
            && s2.outcome.Reply? && s2.outcome.body.One? && s2.outcome.body.found.Some?
            && var parcel := s2.outcome.body.found.value;
               && parcel.id == env.newId
               && StampedCopy(parcel.doc, body, "createdAt", Date(env.now))
               && Field(parcel.doc, "payment") == Field(body, "payment")
  {
    var n := |db.parcels|;
    CreatedParcelStored(db, body, env);
    var s1 := Handle(db, Request(None, CreateParcelRoute(body)), env);
    GetFindsStoredParcel(s1.db, n, header, env);
    var parcel := s1.db.parcels[n];
    assert StampedCopy(parcel.doc, body, "createdAt", Date(env.now));
    assert Field(parcel.doc, "payment") == Field(body, "payment");
  }

  /** After POST /parcels the new parcel is the only one with its id. */
  lemma CreatedParcelStored(db: Db, body: Doc, env: Env)
    requires WellFormed(db) && !HasId(db.parcels, env.newId)
    ensures var s := Handle(db, Request(None, CreateParcelRoute(body)), env);
            && WellFormed(s.db)
            && |s.db.parcels| == |db.parcels| + 1
            && s.db.parcels[|db.parcels|].id == env.newId
            && HasId(s.db.parcels, env.newId)
  {
    HandlePreservesWellFormed(db, Request(None, CreateParcelRoute(body)), env);
    var s := Handle(db, Request(None, CreateParcelRoute(body)), env);
    assert s.db.parcels[|db.parcels|].id == env.newId;
  }

  /** After POST /payments naming a stored parcel, that parcel carries
      `payment: 'paid'` and the payment's transaction id. */
  lemma PaymentUpdatesNamedParcel(db: Db, payment: Doc, env: Env, k: nat)
    requires WellFormed(db) && !HasId(db.payments, env.newId)
    requires k < |db.parcels|
    requires Field(payment, "parcelId") == Some(Str(ToHexString(db.parcels[k].id)))
    ensures var s := Handle(db, Request(None, RecordPaymentRoute(payment)), env);
            && WellFormed(s.db)
            && s.outcome.Reply? && s.outcome.body.PaymentRecorded? && s.outcome.body.matched == 1
            && |s.db.parcels| == |db.parcels|
            && s.db.parcels[k].id == db.parcels[k].id
            && Field(s.db.parcels[k].doc, "payment") == Some(Str("paid"))
            && Field(s.db.parcels[k].doc, "transactionId") == Some(Stored(Field(payment, "transactionId")))
  {
    var id := db.parcels[k].id;
    ParseToHexString(id);
    assert ObjectIdOf(Field(payment, "parcelId"), env.generatedId) == Some(id);
    assert HasId(db.parcels, id);
    HandlePreservesWellFormed(db, Request(None, RecordPaymentRoute(payment)), env);
  }

  /** GET /parcels/:id finds the stored parcel with that id. */
  lemma GetFindsStoredParcel(db: Db, k: nat, header: Option<string>, env: Env)
    requires UniqueIds(db.parcels) && k < |db.parcels|
    requires VerifyToken(header, env.verify).Pass?
    ensures var s := Handle(db, Request(header, GetParcelRoute(ToHexString(db.parcels[k].id))), env);
            s.outcome == Reply(OK, One(Some(db.parcels[k])))
  {
    var id := db.parcels[k].id;
    ParseToHexString(id);
    assert HasId(db.parcels, id);
    var found := GetParcel(db, ToHexString(id)).body.found.value;
    var i :| 0 <= i < |db.parcels| && db.parcels[i] == found;
    assert i == k;
  }

  /** The payment scenario: after a parcel is created and a payment naming it
      is recorded, the parcel reads back as paid with that transaction id. */
  lemma PaymentMarksParcelPaid(db: Db, parcel: Doc, payment: Doc, env1: Env, env2: Env, header: Option<string>)
    requires WellFormed(db) && !HasId(db.parcels, env1.newId)
    requires !HasId(db.payments, env2.newId)
    requires Field(payment, "parcelId") == Some(Str(ToHexString(env1.newId)))
    requires VerifyToken(header, env2.verify).Pass?
    ensures var s1 := Handle(db, Request(None, CreateParcelRoute(parcel)), env1);
            var s2 := Handle(s1.db, Request(None, RecordPaymentRoute(payment)), env2);
            var s3 := Handle(s2.db, Request(header, GetParcelRoute(ToHexString(env1.newId))), env2);
            && s2.outcome.Reply? && s2.outcome.body.PaymentRecorded? && s2.outcome.body.matched == 1
            && s3.outcome.Reply? && s3.outcome.body.One? && s3.outcome.body.found.Some?
            && Field(s3.outcome.body.found.value.doc, "payment") == Some(Str("paid"))
            && Field(s3.outcome.body.found.value.doc, "transactionId") == Some(Stored(Field(payment, "transactionId")))
  {
    var n := |db.parcels|;
    CreatedParcelStored(db, parcel, env1);
    var s1 := Handle(db, Request(None, CreateParcelRoute(parcel)), env1);
    assert s1.db.payments == db.payments;
    PaymentUpdatesNamedParcel(s1.db, payment, env2, n);
    var s2 := Handle(s1.db, Request(None, RecordPaymentRoute(payment)), env2);
    GetFindsStoredParcel(s2.db, n, header, env2);
  }

  /** A caller whose token carries no email claim and who sends no `email`
      parameter passes the owner check of GET /payments and receives the
      whole ledger. */
  lemma NoEmailClaimListsWholeLedger(db: Db, header: Option<string>, env: Env)
    requires VerifyToken(header, env.verify) == Pass(Identity(None))
    ensures Handle(db, Request(header, ListPaymentsRoute(None)), env) == Step(db, Reply(OK, Many(db.payments)))
  {
    FindAnyIsAll(db.payments);
  }

  /** GET /users/role/:email answers every caller whose token passes, about
      any email: the caller's own email claim, whatever it is or whether it is
      there at all, does not enter the answer. */
  lemma RoleLookupIgnoresCaller(db: Db, header: Option<string>, userEmail: string, env: Env)
    requires VerifyToken(header, env.verify).Pass?
    ensures Handle(db, Request(header, GetRoleRoute(userEmail)), env) == Step(db, GetRole(db, userEmail))
  {
  }

  /** Of a sequence sorted ascending on `field`, the projected first `n`
      hold no element that a left-out element sorts strictly before. */
  lemma PrefixOfSortedComesFirst(sorted: seq<Entry>, field: string, n: nat, fields: set<string>, e: Entry, i: nat)
    requires Sorted(sorted, field, true) && field in fields
    requires e in sorted
    requires i < |ProjectAll(Limit(sorted, n), fields)|
    requires forall j :: 0 <= j < |ProjectAll(Limit(sorted, n), fields)| ==> ProjectAll(Limit(sorted, n), fields)[j].id != e.id
    ensures Leq(KeyOf(ProjectAll(Limit(sorted, n), fields)[i], field), KeyOf(e, field))
  {
    var top := Limit(sorted, n);
    var r := ProjectAll(top, fields);
    var k :| 0 <= k < |sorted| && sorted[k] == e;
    assert k >= |top|;
    assert top[i] == sorted[i];
    assert InOrder(sorted[i], sorted[k], field, true);
  }

  /** The search returns the first matches by role: no matching user left
      out of the result sorts strictly before a returned one. */
  lemma SearchReturnsFirstByRole(db: Db, email: Option<string>, env: Env, e: Entry, i: nat)
    requires env.regexValid(SearchPattern(email))
    requires e in db.users && Matches(SearchFilter(email, env), e)
    requires i < |SearchUsers(db, email, env).body.entries|
    requires forall j :: 0 <= j < |SearchUsers(db, email, env).body.entries| ==>
               SearchUsers(db, email, env).body.entries[j].id != e.id
    ensures Leq(KeyOf(SearchUsers(db, email, env).body.entries[i], "role"), KeyOf(e, "role"))
  {
    var matches := Find(db.users, SearchFilter(email, env));
    var sorted := SortBy(matches, "role", true);
    assert e in multiset(sorted);
    PrefixOfSortedComesFirst(sorted, "role", SearchLimit, SearchFields, e, i);
  }
}

=== FILE: routes.dfy ===
/** The HTTP routes of the parcel server as transitions of the document store:
    each handler takes the four collections and a request and gives the
    collections afterwards together with what the client receives. */
module Routes {
  import opened Json
  import opened ObjectIds
  import opened Collections
  import opened Auth

  /** The `parcelDB` database: parcels, payments, users, riders. */
  datatype Db = Db(parcels: Collection, payments: Collection, users: Collection, riders: Collection)

  /** What a request sees of the world besides the store. */
  datatype Env = Env(
    verify: Verifier,                 // the identity provider's token verification
    regex: (string, string) -> bool,  // case-insensitive `$regex` match: pattern, subject
    regexValid: string -> bool,       // whether the store accepts a `$regex` pattern
    now: int,                         // `new Date()`, in milliseconds
    later: int,                       // a second `new Date()`, read independently of `now`
    iso: int -> string,               // `Date.prototype.toISOString`, on milliseconds
    newId: Id,                        // the `_id` the driver assigns to an inserted document
    generatedId: Id)                  // the id `new ObjectId(null)` or `new ObjectId(n)` generates

  /** Response bodies. `Message` carries the `messege`/`message` text of a
      refusal; the others are the driver's acknowledgements and query results. */
  datatype Body =
    | Message(text: string)
    | AlreadyExists(text: string)                 // `{ messege, inserted: 'false' }`
    | Inserted(insertedId: Id)
    | Changed(matched: nat, modified: nat)
    | Removed(deletedCount: nat)
    | One(found: Option<Entry>)
    | Many(entries: seq<Entry>)
    | RoleIs(role: Value)
    | PaymentRecorded(paymentId: Id, matched: nat, modified: nat)

  /** A reply, or a rejected handler promise that no route catches. */
  datatype Outcome = Reply(status: nat, body: Body) | Crash(error: DriverError)

  datatype Step = Step(db: Db, outcome: Outcome)

  const OK: nat := 200
  const Created: nat := 201
  const BadRequest: nat := 400
  const ServerError: nat := 500
  const NotImplemented: nat := 501

  const ParcelFailedMessage := "Failed to create parcel"
  const UserExistsMessage := "User already exist"
  const ServerErrorMessage := "Server error"
  const InvalidRoleMessage := "invalid role"

  /** The result cap of the user search. */
  const SearchLimit: nat := 10

  /** The fields the user search returns besides `_id`. */
  const SearchFields: set<string> := {"email", "role", "photoURL"}

  /** `doc` is `body` with `field` set to `v` and nothing else changed. */
  predicate StampedCopy(doc: Doc, body: Doc, field: string, v: Value)
  {
    && doc.Keys == body.Keys + {field}
    && doc[field] == v
    && forall name :: name in body && name != field ==> doc[name] == body[name]
  }

  /** `if (param)`: a missing or empty query parameter adds no condition. */
  function OptionalEq(field: string, param: Option<string>): (f: Filter)
    ensures forall e :: Matches(f, e) <==>
              (param.None? || param.value == "" || KeyOf(e, field) == Str(param.value))
  {
    if param.Some? && param.value != "" then Eq(field, Str(param.value)) else Any
  }

  // ---------------------------------------------------------------- parcels

  /** GET /parcels: the parcels of one sender (all when `email` is missing or
      empty), newest `createdAt` first. */
  function ListParcels(db: Db, email: Option<string>): (o: Outcome)
    ensures o.Reply? && o.status == OK && o.body.Many?
    ensures forall e :: e in o.body.entries <==>
              e in db.parcels && (email.None? || email.value == "" || KeyOf(e, "senderEmail") == Str(email.value))
    ensures Sorted(o.body.entries, "createdAt", false)
    ensures multiset(o.body.entries) == multiset(Find(db.parcels, OptionalEq("senderEmail", email)))
  {
    var found := Find(db.parcels, OptionalEq("senderEmail", email));
    var sorted := SortBy(found, "createdAt", false);
    assert forall e :: e in sorted <==> e in multiset(sorted);
    assert forall e :: e in found <==> e in multiset(found);
    Reply(OK, Many(sorted))
  }

  /** GET /parcels/:id: the parcel with that id, or null. */
  function GetParcel(db: Db, id: string): (o: Outcome)
    ensures ParseHexId(id).None? ==> o == Crash(BadObjectId)
    ensures ParseHexId(id).Some? ==>
              && o.Reply? && o.status == OK && o.body.One?
              && (o.body.found.Some? <==> HasId(db.parcels, ParseHexId(id).value))
              && (o.body.found.Some? ==>
                    o.body.found.value in db.parcels && o.body.found.value.id == ParseHexId(id).value)
  {
    match ParseHexId(id)
    case None => Crash(BadObjectId)
    case Some(key) =>
      var found := FindOne(db.parcels, IdIs(key));
      assert found.None? ==> !HasId(db.parcels, key) by {
        if found.None? && HasId(db.parcels, key) {
          var i :| 0 <= i < |db.parcels| && db.parcels[i].id == key;
          assert Matches(IdIs(key), db.parcels[i]);
          assert false;
        }
      }
      Reply(OK, One(found))
  }

  /** POST /parcels: stores the body with `createdAt` stamped by the server,
      answering 201; an insert that throws is answered with 501. */
  function CreateParcel(db: Db, body: Doc, env: Env): (s: Step)
    ensures s.db.payments == db.payments && s.db.users == db.users && s.db.riders == db.riders
    ensures s.outcome.Reply?
    ensures HasId(db.parcels, env.newId) ==>
              s == Step(db, Reply(NotImplemented, Message(ParcelFailedMessage)))
    ensures !HasId(db.parcels, env.newId) ==>
              && s.outcome == Reply(Created, Inserted(env.newId))
              && |s.db.parcels| == |db.parcels| + 1
              && s.db.parcels[..|db.parcels|] == db.parcels
              && s.db.parcels[|db.parcels|].id == env.newId
              && StampedCopy(s.db.parcels[|db.parcels|].doc, body, "createdAt", Date(env.now))
  {
    var parcel := body["createdAt" := Date(env.now)];
    match InsertOne(db.parcels, env.newId, parcel)
    case Ok(parcels) => Step(db.(parcels := parcels), Reply(Created, Inserted(env.newId)))
    case Err(_) => Step(db, Reply(NotImplemented, Message(ParcelFailedMessage)))
  }

  /** DELETE /parcels/:id: removes the parcel with that id, if any. */
  function DeleteParcel(db: Db, id: string): (s: Step)
    ensures s.db.payments == db.payments && s.db.users == db.users && s.db.riders == db.riders
    ensures ParseHexId(id).None? ==> s == Step(db, Crash(BadObjectId))
    ensures ParseHexId(id).Some? ==>
              var key := ParseHexId(id).value;
              && s.outcome.Reply? && s.outcome.status == OK && s.outcome.body.Removed?
              && (s.outcome.body.deletedCount == 1 <==> HasId(db.parcels, key))
              && (s.outcome.body.deletedCount == 0 ==> s.db == db)
              && (UniqueIds(db.parcels) ==> forall e :: e in s.db.parcels <==> e in db.parcels && e.id != key)
  {
    match ParseHexId(id)
    case None => Step(db, Crash(BadObjectId))
    case Some(key) =>
      var d := DeleteOne(db.parcels, IdIs(key));
      assert UniqueIds(db.parcels) ==> forall e :: e in d.items <==> e in db.parcels && e.id != key by {
        if UniqueIds(db.parcels) {
          DeleteById(db.parcels, key);
        }
      }
      assert d.deleted == 1 <==> HasId(db.parcels, key) by {
        if HasId(db.parcels, key) {
          var i :| 0 <= i < |db.parcels| && db.parcels[i].id == key;
          assert Matches(IdIs(key), db.parcels[i]);
        }
      }
      Step(db.(parcels := d.items), Reply(OK, Removed(d.deleted)))
  }

  // --------------------------------------------------------------- payments

  /** The payment document as stored: the body with both clock stamps. The
      two stamps come from two clock reads, so `dateString` is the ISO text of
      the second read, which need not be the instant in `date`. */
  function LedgerEntry(body: Doc, env: Env): (d: Doc)
    ensures d.Keys == body.Keys + {"date", "dateString"}
    ensures d["date"] == Date(env.now) && d["dateString"] == Str(env.iso(env.later))
    ensures forall name :: name in body && name != "date" && name != "dateString" ==> d[name] == body[name]
  {
    body["date" := Date(env.now)]["dateString" := Str(env.iso(env.later))]
  }

  /** The `$set` of the parcel update after a payment. */
  function PaidFields(payment: Doc): (d: Doc)
    ensures d.Keys == {"payment", "transactionId"}
    ensures d["payment"] == Str("paid")
    ensures d["transactionId"] == Stored(Field(payment, "transactionId"))
  {
    map["payment" := Str("paid"), "transactionId" := Stored(Field(payment, "transactionId"))]
  }

  /** `after` is `before` with exactly the parcel whose id is `key` given
      the paid fields of `payment`. */
  predicate PaidOnly(before: Collection, after: Collection, key: Id, payment: Doc)
  {
    && |after| == |before|
    && forall i :: 0 <= i < |before| ==>
         after[i] == if before[i].id == key
                     then Entry(key, SetFields(before[i].doc, PaidFields(payment)))
                     else before[i]
  }

  /** The second write of POST /payments: the parcel with id `key` gets the
      paid fields of `payment`. */
  function MarkPaid(parcels: Collection, key: Id, payment: Doc): (u: Updated)
    ensures u.matched == 1 <==> HasId(parcels, key)
    ensures |u.items| == |parcels|
    ensures UniqueIds(parcels) ==> PaidOnly(parcels, u.items, key, payment)
  {
    UpdateByIdMatches(parcels, key, PaidFields(payment));
    assert UniqueIds(parcels) ==>
             forall i :: 0 <= i < |parcels| ==>
               UpdateOne(parcels, IdIs(key), PaidFields(payment)).items[i] ==
                 if parcels[i].id == key then Entry(key, SetFields(parcels[i].doc, PaidFields(payment))) else parcels[i] by {
      if UniqueIds(parcels) {
        UpdateById(parcels, key, PaidFields(payment));
      }
    }
    UpdateOne(parcels, IdIs(key), PaidFields(payment))
  }

  /** POST /payments: appends the stamped payment to the ledger, then marks
      the parcel named by `parcelId` paid with the payment's `transactionId`.
      The two writes are independent: when the id conversion throws after
      the ledger write, the ledger keeps the entry and the parcels are
      untouched. */
  function RecordPayment(db: Db, body: Doc, env: Env): (s: Step)
    ensures s.db.users == db.users && s.db.riders == db.riders
    ensures HasId(db.payments, env.newId) ==> s == Step(db, Crash(DuplicateKey))
    ensures !HasId(db.payments, env.newId) ==>
              s.db.payments == db.payments + [Entry(env.newId, LedgerEntry(body, env))]
    ensures !HasId(db.payments, env.newId) && ObjectIdOf(Field(body, "parcelId"), env.generatedId).None? ==>
              s.outcome == Crash(BadObjectId) && s.db.parcels == db.parcels
    ensures !HasId(db.payments, env.newId) && ObjectIdOf(Field(body, "parcelId"), env.generatedId).Some? ==>
              var key := ObjectIdOf(Field(body, "parcelId"), env.generatedId).value;
              && s.outcome.Reply? && s.outcome.status == OK && s.outcome.body.PaymentRecorded?
              && s.outcome.body.paymentId == env.newId
              && (s.outcome.body.matched == 1 <==> HasId(db.parcels, key))
              && |s.db.parcels| == |db.parcels|
              && (UniqueIds(db.parcels) ==> PaidOnly(db.parcels, s.db.parcels, key, body))
  {
    var payment := LedgerEntry(body, env);
    match InsertOne(db.payments, env.newId, payment)
    case Err(e) => Step(db, Crash(e))
    case Ok(ledger) =>
      var db1 := db.(payments := ledger);
      assert Field(payment, "parcelId") == Field(body, "parcelId");
      assert Field(payment, "transactionId") == Field(body, "transactionId");
      match ObjectIdOf(Field(payment, "parcelId"), env.generatedId)
      case None => Step(db1, Crash(BadObjectId))
      case Some(key) =>
        assert PaidFields(payment) == PaidFields(body);
        var u := MarkPaid(db.parcels, key, payment);
        Step(db1.(parcels := u.items), Reply(OK, PaymentRecorded(env.newId, u.matched, u.modified)))
  }

  /** GET /payments: refused unless the caller's email claim equals the
      `email` parameter; then the ledger entries of that email, or the whole
      ledger when the parameter is missing or empty. No order is applied. */
  function ListPayments(db: Db, who: Identity, email: Option<string>): (o: Outcome)
    ensures who.email != email ==> o == Reply(Forbidden, Message(ForbiddenMessage))
    ensures who.email == email ==>
              && o.Reply? && o.status == OK && o.body.Many?
              && (forall e :: e in o.body.entries <==>
                    e in db.payments && (email.None? || email.value == "" || KeyOf(e, "email") == Str(email.value)))
    ensures who.email == email && UniqueIds(db.payments) ==> UniqueIds(o.body.entries)
  {
    match PaymentsOwnerCheck(who, email)
    case Reject(status, message) => Reply(status, Message(message))
    case Pass(_) => Reply(OK, Many(Find(db.payments, OptionalEq("email", email))))
  }

  // ------------------------------------------------------------------ users

  /** Whether some user document has this email key. */
  predicate EmailTaken(users: Collection, key: Value)
  {
    exists e :: e in users && KeyOf(e, "email") == key
  }

  /** POST /users: inserts the body verbatim unless a user with the same email
      (a missing email counting as null) already exists. */
  function CreateUser(db: Db, body: Doc, env: Env): (s: Step)
    ensures s.db.parcels == db.parcels && s.db.payments == db.payments && s.db.riders == db.riders
    ensures EmailTaken(db.users, Stored(Field(body, "email"))) ==>
              s == Step(db, Reply(OK, AlreadyExists(UserExistsMessage)))
    ensures !EmailTaken(db.users, Stored(Field(body, "email"))) && HasId(db.users, env.newId) ==>
              s == Step(db, Crash(DuplicateKey))
    ensures !EmailTaken(db.users, Stored(Field(body, "email"))) && !HasId(db.users, env.newId) ==>
              s.outcome == Reply(OK, Inserted(env.newId)) && s.db.users == db.users + [Entry(env.newId, body)]
  {
    var key := Stored(Field(body, "email"));
    var existing := FindOne(db.users, Eq("email", key));
    if existing.Some? then Step(db, Reply(OK, AlreadyExists(UserExistsMessage)))
    else match InsertOne(db.users, env.newId, body)
      case Ok(users) =>
        assert users == db.users + [Entry(env.newId, body)];
        Step(db.(users := users), Reply(OK, Inserted(env.newId)))
      case Err(e) => Step(db, Crash(e))
  }

  /** `req.query.email || ''`. */
  function SearchPattern(email: Option<string>): string
  {
    match email
    case Some(p) => p
    case None => ""
  }

  /** The users whose email the search pattern matches. */
  function SearchFilter(email: Option<string>, env: Env): Filter
  {
    var pattern := SearchPattern(email);
    Like("email", subject => env.regex(pattern, subject))
  }

  /** The search result: the first ten matches by ascending role, projected. */
  function SearchResult(matches: seq<Entry>): seq<Entry>
  {
    ProjectAll(Limit(SortBy(matches, "role", true), SearchLimit), SearchFields)
  }

  /** GET /users/search: at most ten users whose email matches the pattern,
      in ascending role order, each cut down to `_id`, email, role and
      photoURL. A pattern the store refuses is answered with 500. */
  function SearchUsers(db: Db, email: Option<string>, env: Env): (o: Outcome)
    ensures !env.regexValid(SearchPattern(email)) ==> o == Reply(ServerError, Message(ServerErrorMessage))
    ensures env.regexValid(SearchPattern(email)) ==>
              var matches := Find(db.users, SearchFilter(email, env));
              && o.Reply? && o.status == OK && o.body.Many?
              && |o.body.entries| == (if |matches| < SearchLimit then |matches| else SearchLimit)
              && Sorted(o.body.entries, "role", true)
              && forall i :: 0 <= i < |o.body.entries| ==>
                   && o.body.entries[i].doc.Keys <= SearchFields
                   && exists e :: e in matches && o.body.entries[i] == Project(e, SearchFields)
    ensures env.regexValid(SearchPattern(email)) && UniqueIds(db.users) ==> UniqueIds(o.body.entries)
  {
    if !env.regexValid(SearchPattern(email)) then Reply(ServerError, Message(ServerErrorMessage))
    else
      var matches := Find(db.users, SearchFilter(email, env));
      SearchResultFacts(matches);
      Reply(OK, Many(SearchResult(matches)))
  }

  lemma SearchResultFacts(matches: seq<Entry>)
    ensures var r := SearchResult(matches);
            && |r| == (if |matches| < SearchLimit then |matches| else SearchLimit)
            && Sorted(r, "role", true)
            && forall i :: 0 <= i < |r| ==>
                 r[i].doc.Keys <= SearchFields && exists e :: e in matches && r[i] == Project(e, SearchFields)
    ensures UniqueIds(matches) ==> UniqueIds(SearchResult(matches))
  {
    var sorted := SortBy(matches, "role", true);
    var top := Limit(sorted, SearchLimit);
    var r := ProjectAll(top, SearchFields);
    assert |sorted| == |matches| by {
      assert |multiset(sorted)| == |multiset(matches)|;
    }
    forall i | 0 <= i < |r|
      ensures exists e :: e in matches && r[i] == Project(e, SearchFields)
    {
      assert top[i] == sorted[i];
      assert sorted[i] in multiset(matches);
    }
    forall i, j | 0 <= i < j < |r|
      ensures InOrder(r[i], r[j], "role", true)
    {
      assert top[i] == sorted[i] && top[j] == sorted[j];
      assert KeyOf(r[i], "role") == KeyOf(sorted[i], "role");
      assert KeyOf(r[j], "role") == KeyOf(sorted[j], "role");
    }
    if UniqueIds(matches) {
      SortKeepsUniqueIds(matches, "role", true);
      forall i, j | 0 <= i < j < |r|
        ensures r[i].id != r[j].id
      {
        assert top[i] == sorted[i] && top[j] == sorted[j];
      }
    }
  }

  /** `['admin', 'user'].includes(role)`. */
  predicate ValidRole(role: Option<Value>)
  {
    role == Some(Str("admin")) || role == Some(Str("user"))
  }

  /** PATCH /users/:id/role: a role other than "admin" or "user" is refused
      with 400 before the id is looked at; otherwise that user's `role` is set
      and nothing else changes. */
  function UpdateRole(db: Db, id: string, body: Doc): (s: Step)
    ensures s.db.parcels == db.parcels && s.db.payments == db.payments && s.db.riders == db.riders
    ensures !ValidRole(Field(body, "role")) ==> s == Step(db, Reply(BadRequest, Message(InvalidRoleMessage)))
    ensures ValidRole(Field(body, "role")) && ParseHexId(id).None? ==> s == Step(db, Crash(BadObjectId))
    ensures ValidRole(Field(body, "role")) && ParseHexId(id).Some? ==>
              var key := ParseHexId(id).value;
              && s.outcome.Reply? && s.outcome.status == OK && s.outcome.body.Changed?
              && (s.outcome.body.matched == 1 <==> HasId(db.users, key))
              && |s.db.users| == |db.users|
              && (UniqueIds(db.users) ==>
                    forall i :: 0 <= i < |db.users| ==>
                      s.db.users[i] == if db.users[i].id == key
                                       then Entry(key, db.users[i].doc["role" := body["role"]])
                                       else db.users[i])
  {
    var role := Field(body, "role");
    if !ValidRole(role) then Step(db, Reply(BadRequest, Message(InvalidRoleMessage)))
    else match ParseHexId(id)
      case None => Step(db, Crash(BadObjectId))
      case Some(key) =>
        var u := UpdateOne(db.users, IdIs(key), map["role" := role.value]);
        UpdateByIdMatches(db.users, key, map["role" := role.value]);
        assert UniqueIds(db.users) ==>
                 forall i :: 0 <= i < |db.users| ==>
                   u.items[i] == if db.users[i].id == key
                                 then Entry(key, db.users[i].doc["role" := body["role"]])
                                 else db.users[i] by {
          if UniqueIds(db.users) {
            SetFieldById(db.users, key, "role", role.value);
          }
        }
        Step(db.(users := u.items), Reply(OK, Changed(u.matched, u.modified)))
  }

  /** `user?.role || 'user'`. */
  function RoleOrDefault(user: Option<Entry>): Value
  {
    if user.Some? && TruthyOpt(Field(user.value.doc, "role")) then user.value.doc["role"] else Str("user")
  }

  /** GET /users/role/:email: the role of the first user with that email when
      it is truthy, otherwise "user". */
  function GetRole(db: Db, email: string): (o: Outcome)
    ensures o.Reply? && o.status == OK && o.body.RoleIs?
    ensures Truthy(o.body.role)
    ensures !EmailTaken(db.users, Str(email)) ==> o.body.role == Str("user")
    ensures forall i :: 0 <= i < |db.users| && KeyOf(db.users[i], "email") == Str(email) &&
                        (forall j :: 0 <= j < i ==> KeyOf(db.users[j], "email") != Str(email)) ==>
              o.body.role == if TruthyOpt(Field(db.users[i].doc, "role")) then db.users[i].doc["role"] else Str("user")
    ensures o.body.role != Str("user") ==>
              exists e :: e in db.users && KeyOf(e, "email") == Str(email) && Field(e.doc, "role") == Some(o.body.role)
  {
    var user := FindOne(db.users, Eq("email", Str(email)));
    Reply(OK, RoleIs(RoleOrDefault(user)))
  }

  // ----------------------------------------------------------------- riders

  /** POST /riders: stores the application with `status` forced to
      "pending", whatever the client sent. */
  function ApplyRider(db: Db, body: Doc, env: Env): (s: Step)
    ensures s.db.parcels == db.parcels && s.db.payments == db.payments && s.db.users == db.users
    ensures HasId(db.riders, env.newId) ==> s == Step(db, Crash(DuplicateKey))
    ensures !HasId(db.riders, env.newId) ==>
              && s.outcome == Reply(OK, Inserted(env.newId))
              && |s.db.riders| == |db.riders| + 1
              && s.db.riders[..|db.riders|] == db.riders
              && s.db.riders[|db.riders|].id == env.newId
              && StampedCopy(s.db.riders[|db.riders|].doc, body, "status", Str("pending"))
  {
    match InsertOne(db.riders, env.newId, body["status" := Str("pending")])
    case Ok(riders) => Step(db.(riders := riders), Reply(OK, Inserted(env.newId)))
    case Err(e) => Step(db, Crash(e))
  }

  /** The riders whose status is `status`, in natural order. */
  function RidersWithStatus(db: Db, status: string): (o: Outcome)
    ensures o.Reply? && o.status == OK && o.body.Many?
    ensures forall e :: e in o.body.entries <==> e in db.riders && KeyOf(e, "status") == Str(status)
    ensures UniqueIds(db.riders) ==> UniqueIds(o.body.entries)
  {
    Reply(OK, Many(Find(db.riders, Eq("status", Str(status)))))
  }

  /** PATCH /riders/:id: sets the rider's `status` to the body's, with no
      check of the old or the new value; a missing status is written as
      null. */
  function UpdateRider(db: Db, id: string, body: Doc): (s: Step)
    ensures s.db.parcels == db.parcels && s.db.payments == db.payments && s.db.users == db.users
    ensures ParseHexId(id).None? ==> s == Step(db, Crash(BadObjectId))
    ensures ParseHexId(id).Some? ==>
              var key := ParseHexId(id).value;
              && s.outcome.Reply? && s.outcome.status == OK && s.outcome.body.Changed?
              && (s.outcome.body.matched == 1 <==> HasId(db.riders, key))
              && |s.db.riders| == |db.riders|
              && (UniqueIds(db.riders) ==>
                    forall i :: 0 <= i < |db.riders| ==>
                      s.db.riders[i] == if db.riders[i].id == key
                                        then Entry(key, db.riders[i].doc["status" := Stored(Field(body, "status"))])
                                        else db.riders[i])
  {
    match ParseHexId(id)
    case None => Step(db, Crash(BadObjectId))
    case Some(key) =>
      var changes := map["status" := Stored(Field(body, "status"))];
      var u := UpdateOne(db.riders, IdIs(key), changes);
      assert UniqueIds(db.riders) ==>
               forall i :: 0 <= i < |db.riders| ==>
                 u.items[i] == if db.riders[i].id == key
                               then Entry(key, db.riders[i].doc["status" := Stored(Field(body, "status"))])
                               else db.riders[i] by {
        if UniqueIds(db.riders) {
          SetFieldById(db.riders, key, "status", Stored(Field(body, "status")));
        }
      }
      UpdateByIdMatches(db.riders, key, changes);
      Step(db.(riders := u.items), Reply(OK, Changed(u.matched, u.modified)))
  }
}

=== FILE: scenarios.dfy ===
/** Request sequences that pair each write route with the route that reads
    its effect back: create then delete, pay then list, set a role then look
    it up, apply as a rider then list the applications, accept a rider then
    list both rider queues. */
module Scenarios {
  import opened Json
  import opened ObjectIds
  import opened Collections
  import opened Auth
  import opened Routes
  import opened ServerProperties

  /** Creating a parcel and deleting it by its printed id gives back the
      store exactly as it was, and the delete reports one removal. */
  lemma CreateThenDeleteRestores(db: Db, body: Doc, env: Env)
    requires WellFormed(db) && !HasId(db.parcels, env.newId)
    ensures var s1 := CreateParcel(db, body, env);
            DeleteParcel(s1.db, ToHexString(env.newId)) == Step(db, Reply(OK, Removed(1)))
  {
    ParseToHexString(env.newId);
    var parcels := CreateParcel(db, body, env).db.parcels;
    var n := |db.parcels|;
    assert parcels[..n] == db.parcels;
    forall j | 0 <= j < n
      ensures parcels[j].id != env.newId
    {
      assert parcels[j] == db.parcels[j];
    }
    FirstMatchAt(parcels, IdIs(env.newId), n);
    var d := DeleteOne(parcels, IdIs(env.newId));
    assert d.items == db.parcels;
  }

  /** A recorded payment is listed to its owner afterwards, also when the
      parcel update crashed after the ledger write. */
  lemma PaymentListedForOwner(db: Db, body: Doc, email: string, env: Env)
    requires !HasId(db.payments, env.newId)
    requires Field(body, "email") == Some(Str(email))
    ensures var listed := ListPayments(RecordPayment(db, body, env).db, Identity(Some(email)), Some(email));
            && listed.Reply? && listed.status == OK && listed.body.Many?
            && Entry(env.newId, LedgerEntry(body, env)) in listed.body.entries
  {
    var entry := Entry(env.newId, LedgerEntry(body, env));
    var payments := RecordPayment(db, body, env).db.payments;
    assert payments == db.payments + [entry];
    assert entry in payments;
    assert KeyOf(entry, "email") == Str(email);
  }

  /** Setting a valid role on a stored user by its printed id makes the role
      lookup for that user's email answer the new role. */
  lemma RoleUpdateThenLookup(db: Db, k: nat, email: string, body: Doc)
    requires WellFormed(db) && k < |db.users|
    requires KeyOf(db.users[k], "email") == Str(email)
    requires ValidRole(Field(body, "role"))
    ensures var s := UpdateRole(db, ToHexString(db.users[k].id), body);
            GetRole(s.db, email) == Reply(OK, RoleIs(body["role"]))
  {
    var id := db.users[k].id;
    ParseToHexString(id);
    UpdateRoleKeepsEmailsUnique(db, ToHexString(id), body);
    var users := UpdateRole(db, ToHexString(id), body).db.users;
    var updated := users[k];
    assert updated == Entry(id, db.users[k].doc["role" := body["role"]]);
    assert KeyOf(updated, "email") == Str(email);
    assert updated in users;
    RoleLookup(UpdateRole(db, ToHexString(id), body).db, email, updated);
  }

  /** An application posted to POST /riders is listed by GET /riders/pending,
      whatever status the applicant sent. */
  lemma AppliedRiderIsPending(db: Db, body: Doc, env: Env)
    requires !HasId(db.riders, env.newId)
    ensures var listed := RidersWithStatus(ApplyRider(db, body, env).db, "pending");
            Entry(env.newId, body["status" := Str("pending")]) in listed.body.entries
  {
    var riders := ApplyRider(db, body, env).db.riders;
    var rider := riders[|db.riders|];
    assert rider == Entry(env.newId, body["status" := Str("pending")]);
    assert rider in riders;
  }

  /** Accepting a stored rider through PATCH /riders/:id moves it out of the
      pending list and into the accepted list. */
  lemma AcceptedRiderLeavesPending(db: Db, k: nat, body: Doc)
    requires WellFormed(db) && k < |db.riders|
    requires Field(body, "status") == Some(Str("accepted"))
    ensures var id := db.riders[k].id;
            var s := UpdateRider(db, ToHexString(id), body);
            && (forall e :: e in RidersWithStatus(s.db, "pending").body.entries ==> e.id != id)
            && Entry(id, db.riders[k].doc["status" := Str("accepted")]) in RidersWithStatus(s.db, "accepted").body.entries
  {
    var id := db.riders[k].id;
    ParseToHexString(id);
    var riders := UpdateRider(db, ToHexString(id), body).db.riders;
    assert riders[k] == Entry(id, db.riders[k].doc["status" := Str("accepted")]);
    assert riders[k] in riders;
    forall e | e in riders && e.id == id
      ensures KeyOf(e, "status") != Str("pending")
    {
      var i :| 0 <= i < |riders| && riders[i] == e;
      if i != k {
        assert false;
      }
    }
  }
}

=== FILE: server.dfy ===
/** The route table: which guards run in front of which handler, and the
    dispatch of a request through them. */
module Server {
  import opened Json
  import opened Auth
  import opened Routes

  datatype Route =
    | ListParcelsRoute(email: Option<string>)             // GET /parcels?email=
    | GetParcelRoute(id: string)                          // GET /parcels/:id
    | CreateParcelRoute(body: Doc)                        // POST /parcels
    | DeleteParcelRoute(id: string)                       // DELETE /parcels/:id
    | RecordPaymentRoute(body: Doc)                       // POST /payments
    | ListPaymentsRoute(email: Option<string>)            // GET /payments?email=
    | CreateUserRoute(body: Doc)                          // POST /users
    | SearchUsersRoute(email: Option<string>)             // GET /users/search?email=
    | UpdateRoleRoute(id: string, body: Doc)              // PATCH /users/:id/role
    | GetRoleRoute(userEmail: string)                     // GET /users/role/:email
    | ApplyRiderRoute(body: Doc)                          // POST /riders
    | PendingRidersRoute                                  // GET /riders/pending
    | ActiveRidersRoute                                   // GET /riders/active
    | UpdateRiderRoute(id: string, body: Doc)             // PATCH /riders/:id

  /** A request: its route, and its Authorization header if sent. The header
      is the value Express presents as `req.headers.authorization`: Node's
      HTTP parser has already stripped the whitespace around it. So a value
      that starts or ends with a space never arrives. */
  datatype Request = Request(authorization: Option<string>, route: Route)

  datatype Guard = Open | TokenOnly | TokenThenAdmin

  /** The middleware each route is registered with. */
  function GuardOf(r: Route): Guard
  {
    match r
    case ListParcelsRoute(_) => TokenOnly
    case GetParcelRoute(_) => TokenOnly
    case ListPaymentsRoute(_) => TokenOnly
    case SearchUsersRoute(_) => TokenOnly
    case GetRoleRoute(_) => TokenOnly
    case ActiveRidersRoute => TokenThenAdmin
    case _ => Open
  }

  /** The routes that only read the store. */
  predicate IsQuery(r: Route)
  {
    r.ListParcelsRoute? || r.GetParcelRoute? || r.ListPaymentsRoute? || r.SearchUsersRoute? ||
    r.GetRoleRoute? || r.PendingRidersRoute? || r.ActiveRidersRoute?
  }

  function Refuse(g: Gate): Outcome
    requires g.Reject?
  {
    Reply(g.status, Message(g.message))
  }

  /** Runs the handler of `r` once its guards have passed; `who` is the
      identity the token guard attached, when the route has one. */
  function Serve(db: Db, r: Route, who: Option<Identity>, env: Env): Step
    requires GuardOf(r) != Open ==> who.Some?
  {
    match r
    case ListParcelsRoute(email) => Step(db, ListParcels(db, email))
    case GetParcelRoute(id) => Step(db, GetParcel(db, id))
    case CreateParcelRoute(body) => CreateParcel(db, body, env)
    case DeleteParcelRoute(id) => DeleteParcel(db, id)
    case RecordPaymentRoute(body) => RecordPayment(db, body, env)
    case ListPaymentsRoute(email) => Step(db, ListPayments(db, who.value, email))
    case CreateUserRoute(body) => CreateUser(db, body, env)
    case SearchUsersRoute(email) => Step(db, SearchUsers(db, email, env))
    case UpdateRoleRoute(id, body) => UpdateRole(db, id, body)
    case GetRoleRoute(userEmail) => Step(db, GetRole(db, userEmail))
    case ApplyRiderRoute(body) => ApplyRider(db, body, env)
    case PendingRidersRoute => Step(db, RidersWithStatus(db, "pending"))
    case ActiveRidersRoute => Step(db, RidersWithStatus(db, "accepted"))
    case UpdateRiderRoute(id, body) => UpdateRider(db, id, body)
  }

  /** One request through its guards and handler. A guard that refuses ends
      the request with its status and leaves the store alone; the admin guard
      only runs once the token guard has passed. */
  function Handle(db: Db, req: Request, env: Env): (s: Step)
    ensures GuardOf(req.route) != Open && VerifyToken(req.authorization, env.verify).Reject? ==>
              s == Step(db, Refuse(VerifyToken(req.authorization, env.verify)))
    ensures GuardOf(req.route) == TokenThenAdmin && VerifyToken(req.authorization, env.verify).Pass? &&
            VerifyAdmin(db.users, VerifyToken(req.authorization, env.verify).who).Reject? ==>
              s == Step(db, Reply(Forbidden, Message(NotAdminMessage)))
    ensures GuardOf(req.route) == TokenOnly && VerifyToken(req.authorization, env.verify).Pass? ==>
              s == Serve(db, req.route, Some(VerifyToken(req.authorization, env.verify).who), env)
    ensures GuardOf(req.route) == TokenThenAdmin && VerifyToken(req.authorization, env.verify).Pass? &&
            VerifyAdmin(db.users, VerifyToken(req.authorization, env.verify).who).Pass? ==>
              s == Serve(db, req.route, Some(VerifyToken(req.authorization, env.verify).who), env)
    ensures GuardOf(req.route) == Open ==> s == Serve(db, req.route, None, env)
    ensures IsQuery(req.route) ==> s.db == db
  {
    match GuardOf(req.route)
    case Open => Serve(db, req.route, None, env)
    case TokenOnly =>
      var token := VerifyToken(req.authorization, env.verify);
      if token.Reject? then Step(db, Refuse(token))
      else Serve(db, req.route, Some(token.who), env)
    case TokenThenAdmin =>
      var token := VerifyToken(req.authorization, env.verify);
      if token.Reject? then Step(db, Refuse(token))
      else
        var admin := VerifyAdmin(db.users, token.who);
        if admin.Reject? then Step(db, Refuse(admin))
        else Serve(db, req.route, Some(token.who), env)
  }
}

=== FILE: strings.dfy ===
/** JavaScript's `String.prototype.split` with a one-character separator and
    its inverse `Array.prototype.join`, used by the token guard to cut the
    token out of the Authorization header. */
module Strings {
  import opened Json

  /** `parts.join(sep)`: the parts with one separator between neighbours. */
  function Join(parts: seq<string>, sep: char): string
  {
    if |parts| == 0 then []
    else if |parts| == 1 then parts[0]
    else parts[0] + [sep] + Join(parts[1..], sep)
  }

  predicate NoSeparator(parts: seq<string>, sep: char)
  {
    forall i :: 0 <= i < |parts| ==> sep !in parts[i]
  }

  /** `s.split(sep)`: the maximal separator-free pieces of `s`, in order. There
      is always at least one piece; an empty string gives `[""]`, and two
      adjacent separators give an empty piece between them. */
  function Split(s: string, sep: char): (parts: seq<string>)
    ensures |parts| >= 1
    ensures NoSeparator(parts, sep)
    ensures Join(parts, sep) == s
  {
    if s == [] then [[]]
    else
      var rest := Split(s[1..], sep);
      if s[0] == sep then
        assert Join([[]] + rest, sep) == [sep] + Join(rest, sep);
        [[]] + rest
      else
        JoinConsChar(s[0], rest, sep);
        [[s[0]] + rest[0]] + rest[1..]
  }

  lemma JoinConsChar(c: char, parts: seq<string>, sep: char)
    requires |parts| >= 1
    ensures Join([[c] + parts[0]] + parts[1..], sep) == [c] + Join(parts, sep)
  {
    var q := [[c] + parts[0]] + parts[1..];
    assert q[1..] == parts[1..];
  }

  lemma {:induction false} JoinHasSeparator(parts: seq<string>, sep: char)
    requires |parts| >= 2
    ensures |parts[0]| < |Join(parts, sep)| && Join(parts, sep)[|parts[0]|] == sep
    ensures Join(parts, sep)[..|parts[0]|] == parts[0]
    ensures Join(parts, sep)[|parts[0]| + 1..] == Join(parts[1..], sep)
  {
  }

  lemma {:induction false} NoSeparatorInJoinOfOne(parts: seq<string>, sep: char)
    requires |parts| == 1 && NoSeparator(parts, sep)
    ensures sep !in Join(parts, sep)
  {
    assert NoSeparator(parts, sep);
    assert sep !in parts[0];
  }

  /** In a join of two or more separator-free pieces, the first separator
      sits right after the first piece. */
  lemma FirstSeparatorAfterFirstPiece(parts: seq<string>, sep: char)
    requires |parts| >= 2 && NoSeparator(parts, sep)
    ensures |parts[0]| < |Join(parts, sep)| && Join(parts, sep)[|parts[0]|] == sep
    ensures forall i :: 0 <= i < |parts[0]| ==> Join(parts, sep)[i] != sep
  {
    JoinHasSeparator(parts, sep);
    assert sep !in parts[0];
  }

  /** Separator-free pieces are determined by their join. */
  lemma {:induction false} JoinInjective(p: seq<string>, q: seq<string>, sep: char)
    requires |p| >= 1 && |q| >= 1
    requires NoSeparator(p, sep) && NoSeparator(q, sep)
    requires Join(p, sep) == Join(q, sep)
    ensures p == q
    decreases |p|
  {
    if |p| == 1 && |q| == 1 {
    } else if |p| == 1 {
      FirstSeparatorAfterFirstPiece(q, sep);
      NoSeparatorInJoinOfOne(p, sep);
      assert false;
    } else if |q| == 1 {
      FirstSeparatorAfterFirstPiece(p, sep);
      NoSeparatorInJoinOfOne(q, sep);
      assert false;
    } else {
      FirstSeparatorAfterFirstPiece(p, sep);
      FirstSeparatorAfterFirstPiece(q, sep);
      assert |p[0]| == |q[0]|;
      JoinHasSeparator(p, sep);
      JoinHasSeparator(q, sep);
      assert NoSeparator(p[1..], sep) && NoSeparator(q[1..], sep);
      JoinInjective(p[1..], q[1..], sep);
      assert p == [p[0]] + p[1..] && q == [q[0]] + q[1..];
    }
  }

  /** Splitting a join of separator-free pieces gives the pieces back. */
  lemma SplitJoin(parts: seq<string>, sep: char)
    requires |parts| >= 1 && NoSeparator(parts, sep)
    ensures Split(Join(parts, sep), sep) == parts
  {
    JoinInjective(Split(Join(parts, sep), sep), parts, sep);
  }

  /** `s.split(sep)[1]`: the second piece, `None` (JavaScript's `undefined`)
      when `s` holds no separator at all. */
  function SecondPiece(s: string, sep: char): (r: Option<string>)
    ensures r.None? <==> sep !in s
    ensures r.Some? ==> sep !in r.value
  {
    var parts := Split(s, sep);
    if |parts| >= 2 then
      JoinHasSeparator(parts, sep);
      Some(parts[1])
    else
      NoSeparatorInJoinOfOne(parts, sep);
      None
  }

  /** The second piece is exactly what lies between the first separator and
      the next separator (or the end of the string). */
  lemma SecondPieceOf(head: string, piece: string, tail: string, sep: char)
    requires sep !in head && sep !in piece
    requires tail == [] || tail[0] == sep
    ensures SecondPiece(head + [sep] + piece + tail, sep) == Some(piece)
  {
    var parts := if tail == [] then [head, piece] else [head, piece] + Split(tail[1..], sep);
    var s := head + [sep] + piece + tail;
    if tail == [] {
      assert Join(parts, sep) == s;
    } else {
      var more := Split(tail[1..], sep);
      assert parts[1..] == [piece] + more;
      assert parts[2..] == more;
      assert Join(parts[1..], sep) == piece + [sep] + Join(more, sep);
      assert tail == [sep] + tail[1..];
      assert Join(parts, sep) == s;
    }
    SplitJoin(parts, sep);
  }

  /** Unfolds a join of two or more pieces past its second piece. */
  lemma JoinPastSecond(parts: seq<string>, sep: char)
    requires |parts| >= 2
    ensures Join(parts, sep) == parts[0] + [sep] + parts[1] + RestAfterSecond(parts, sep)
  {
    if |parts| > 2 {
      assert parts[1..][1..] == parts[2..];
    }
  }

  /** What follows the second piece in a join: nothing, or a separator and
      the join of the remaining pieces. */
  function RestAfterSecond(parts: seq<string>, sep: char): string
    requires |parts| >= 2
  {
    if |parts| == 2 then [] else [sep] + Join(parts[2..], sep)
  }

  /** `s` is `head`, a separator, `piece`, and then nothing or a separator
      followed by anything, with no separator in `head`. */
  predicate PieceAfterFirstSeparator(s: string, head: string, piece: string, tail: string, sep: char)
  {
    sep !in head && (tail == [] || tail[0] == sep) && s == head + [sep] + piece + tail
  }

  /** The second piece of a split with at least two pieces. */
  lemma SecondPieceIsSplitPiece(s: string, sep: char)
    requires SecondPiece(s, sep).Some?
    ensures |Split(s, sep)| >= 2 && SecondPiece(s, sep).value == Split(s, sep)[1]
  {
  }

  /** Conversely, every string with a second piece has that shape. */
  lemma SecondPieceShape(s: string, sep: char)
    requires SecondPiece(s, sep).Some?
    ensures exists head, tail :: PieceAfterFirstSeparator(s, head, SecondPiece(s, sep).value, tail, sep)
  {
    SecondPieceIsSplitPiece(s, sep);
    var parts := Split(s, sep);
    JoinPastSecond(parts, sep);
    assert sep !in parts[0];
    assert PieceAfterFirstSeparator(s, parts[0], parts[1], RestAfterSecond(parts, sep), sep);
  }
}
